=== FILE: README.md ===
# QR link hub: a verified model of the request handlers

The server behind this model lets an operator register a business, give it up to three
platform destinations (Instagram, TikTok, YouTube), print QR codes that point at a stable
redirect address, and watch the scans come in. This project models the sequential logic
of `server.js` route by route. The database becomes an immutable `Store`, and each
handler becomes a pure function from (store, request fields) to `Handled(response, store)`.

What the model covers:

- `Slugs`: deriving a business's slug from a custom value or from its name.
- `Steps`: parsing the steps textarea into numbered step rows.
- `Platforms`: two ways of parsing a platform, case-insensitive (update, redirect) and
  exact (toggle, QR).
- `Registry`: the link registry handlers. These are update with its audit-history row,
  enable/disable toggle, and theme save with step replacement.
- `Lifecycle`: create and cascade delete.
- `Dispatch`: the QR redirect with client-address extraction and a scan event, plus the
  stable QR image address.
- `Analytics`: per-platform scan counts.
- `Invariants`: a store invariant (`Store.WellFormed`) that every handler keeps, and
  cross-handler facts.

JavaScript semantics are written out explicitly:

- `||` on form fields: `Fields.OrNull` and `Fields.OrEmpty`.
- `String.prototype.trim`: the exact ECMAScript white-space and line-terminator set.
- `split` on one character.
- The two regular-expression replaces of the slug.

Form fields are `Option<string>`, where `None` means the field was absent. Case mapping
covers ASCII letters only.

The store is a map from slug to business. Slug uniqueness is therefore structural, and a
create that collides answers 500, as the unique constraint makes it. Each business also
has a numeric `id`, handed out from `nextId`. Steps, history rows and scan events are
`Rows.Row`s that point at that id.

Behaviour worth noting. Each point below breaks a rule that the rest of the code keeps:

- A destination is never `""`, except after a create. Update, toggle and theme save
  store a non-empty value or null. A create stores the three destinations as submitted,
  so `""` can be stored there.
- A slug is not always non-empty. A name with no ASCII letter or digit derives the empty
  slug (`Slugs.NameSlugEmpty`), and nothing rejects it.
- Not every destination change is recorded in history. Update and toggle each append one
  history row, but a theme save rewrites the destinations without one. The audit trail
  can then disagree with the field (`Registry.ThemeBypassesAudit`).
- Database failures are not always caught. Create, theme save, toggle and delete wrap
  their database calls in `try`/`catch` and answer 500, and the QR route catches a
  failure of the image encoder. Nothing else catches:
  - the update handler's lookup and transaction (`server.js:88`, `server.js:98-103`);
  - the analytics query (`server.js:256-265`);
  - the slug lookups of the redirect and the QR route (`server.js:236`, `server.js:274`);
  - the scan write before the redirect (`server.js:248`).

  The model has no failing database, so none of these paths appears in it.
- A QR code does not always reach the redirect. A custom slug is only trimmed and
  lower-cased, so it may hold `/` (`Slugs.SlashedCustomSlug`). The address of its QR
  code then splits into more than the two segments of `/r/:slug/:platform`
  (`Dispatch.StableUrlSegments`), so scanning it never reaches the redirect handler.
  `?` and `#` in a slug break the address in the same way; the model does not parse
  those.

## Model

Two primitives have no row of their own: `Text.Split` (`split` on one character) and
`Rows.Without` (`deleteMany` on one business). Their own contracts are partial. The rows of
`Text.JoinSplit`, `Text.SplitJoin` and `Text.SplitAround`, and of `Lifecycle.DeletedRows`
and `Registry.ReplacedSteps`, state what they compute.

| member | source | states |
|---|---|---|
| Fields.OrNull | server.js:123-134 | `x`-or-null is absent exactly when `x` is absent or empty; otherwise it is `x` itself and never `""` |
| Fields.OrEmpty | server.js:100 | `x`-or-empty is `""` exactly when `x` is absent or empty, otherwise it is `x` |
| Text.Trim | server.js:44-45 | the result is the slice between the leading and trailing white space. It is empty exactly when the input is all white space; otherwise neither end is white space |
| Text.TrimIdempotent | server.js:244 | trimming twice is trimming once |
| Text.JoinSplit | server.js:61 | joining the pieces of `split(sep)` with `sep` gives back the input |
| Text.SplitJoin | server.js:61 | splitting a join of separator-free pieces gives back the pieces |
| Text.SplitAround | server.js:61 | splitting `a + sep + b` gives the pieces of `a` followed by the pieces of `b` |
| Slugs.DeriveSlug | server.js:44-46 | a non-blank custom slug wins, trimmed then lower-cased: non-empty, trimmed, no upper-case letter. Otherwise the name-derived slug, which is canonical: only `a-z0-9-`, no `--`, no hyphen at either end |
| Slugs.CollapseRuns | server.js:46 | the result is empty iff the input is. A leading `[a-z0-9]` character is kept and anything else becomes `-`. Only `a-z0-9-` remain and no two hyphens are adjacent; where the hyphens go is stated by the next three lemmas |
| Slugs.CollapseSlugChars | server.js:46 | a prefix made only of `[a-z0-9]` passes through unchanged, in front of the collapsed rest |
| Slugs.CollapseRun | server.js:46 | a non-empty run with no `[a-z0-9]` character, followed by nothing or by an `[a-z0-9]` character, becomes exactly one `-` |
| Slugs.WordsAroundRun | server.js:46 | two words of `[a-z0-9]` around such a run are joined by exactly one `-` |
| Slugs.SpaceBecomesHyphen | server.js:46 | the name `"a b"` derives the slug `"a-b"` |
| Slugs.StripEdgeHyphens | server.js:46 | the result is a contiguous slice of the input. It drops one leading character exactly when that is `-`, and one trailing character exactly when the remainder ends in `-`, and nothing else. Applied to collapsed text, the result is canonical |
| Slugs.NameSlug | server.js:46 | every name-derived slug is canonical (only `a-z0-9-`, no `--`, no hyphen at either end) and keeps exactly the letters and digits of the lower-cased name, in order |
| Slugs.NameSlugEmpty | server.js:46 | the name-derived slug is empty exactly when the lower-cased name has no `[a-z0-9]` character |
| Slugs.CanonicalFixed | server.js:46 | deriving from a canonical slug returns it unchanged |
| Slugs.NameSlugIdempotent | server.js:46 | deriving a slug again from a derived slug returns it unchanged |
| Slugs.BlankCustomFallsBack | server.js:44 | a whitespace-only custom slug behaves like an absent one |
| Steps.DropBlank | server.js:61 | the kept lines are non-empty, never more than the input, and all of them when none is empty |
| Steps.DropBlankMembers | server.js:61 | a line is kept exactly when it is an input line and non-empty |
| Steps.StepTexts | server.js:61 | every kept line is non-empty, trimmed and free of newlines |
| Steps.ParseSteps | server.js:60-66 | orders run 1..n in sequence; every text is non-empty, trimmed, single-line; the texts are exactly the kept lines of the field (none when absent or blank) |
| Steps.BlankHasNoSteps | server.js:60 | a whitespace-only textarea yields no step, so the blank guard changes nothing |
| Steps.EveryLineKept | server.js:61 | every input line that is not blank after trimming appears among the steps, trimmed |
| Steps.StepTextsJoin | server.js:61 | the steps of `a + "\n" + b` are the steps of `a` followed by those of `b`, so input order is kept |
| Steps.StepTextsLine | server.js:61 | a single line yields its trimmed text, or nothing when blank |
| Platforms.Parse | server.js:93 | a string parses to platform `p` exactly when it equals `p`'s key |
| Platforms.ParseField | server.js:161 | toggle's exact match: a platform exactly when the field equals its key; an absent field is invalid |
| Platforms.ParseLowered | server.js:92-93 | update's check: a platform exactly when the lower-cased field (`''` when absent) equals its key |
| Platforms.EnumName | server.js:100 | the stored platform name is the upper-cased key |
| Platforms.ParseKey | server.js:93 | every key parses back to its platform under both checks |
| Platforms.CaseMatters | server.js:161 | `"Instagram"` fails the exact check and passes the lower-casing one |
| Store.WithUrl | server.js:96 | writing one platform's destination sets that field and changes no other field |
| Registry.Update | server.js:87-106 | unknown slug: 404, store unchanged; bad platform after lower-casing: 400, store unchanged. Otherwise the field becomes `newUrl` or null, other platforms and businesses are unchanged, and exactly one history row is appended with the previous value and `newUrl` or `""`. Steps, scans and ids are untouched |
| Registry.Toggle | server.js:155-186 | 404, then 400 on an inexact platform, store unchanged. Enabling with no usable URL answers 400 and writes nothing. Otherwise the field is set (on) or cleared (off), exactly one history row is appended with the previous value and the new URL or `""`, and nothing else changes |
| Registry.SaveTheme | server.js:109-152 | 404 on unknown slug. Otherwise every text and destination field becomes its value or null, `showLogo` the truthiness of the field, and the layout horizontal only for `"horizontal"`. The business's steps become exactly the parsed textarea, other businesses' steps stay as they were, and history, scans and ids are untouched |
| Registry.ReplacedSteps | server.js:139-145 | deleting a business's steps and appending the new list leaves it exactly the new list, and every other business its old steps |
| Registry.UpdateAudited | server.js:95-103 | after an update the latest history row for the platform reflects the field; an audit trail that agreed before still agrees |
| Registry.ToggleAudited | server.js:163-179 | the same for a successful toggle |
| Registry.ThemeBypassesAudit | server.js:120-136 | a theme save that changes an audited destination leaves history that no longer agrees with the field |
| Registry.DisableIsClear | server.js:166-170 | switching a platform off is the same write as updating it with no URL |
| Registry.ToggleIsCaseSensitive | server.js:161 | toggling `"Instagram"` is an invalid platform while updating it succeeds |
| Registry.ReenableNeedsUrl | server.js:166-174 | after switching a platform off, switching it on again without a non-blank new URL always answers 400 and writes nothing |
| Lifecycle.Create | server.js:31-74 | missing name or slug already in use: 500, store unchanged. Otherwise the business is stored under the derived slug with the next id. Brand colour becomes its value or null, `showLogo` becomes the truthiness of the field, the layout is horizontal only for `"horizontal"`, the other text fields and the destinations are stored as submitted, and the parsed steps are appended for the new id |
| Lifecycle.Delete | server.js:189-204 | 404 on unknown slug. Otherwise the business is gone, none of its steps, history rows or scan events remain, and every other business and its rows are unchanged, in order |
| Lifecycle.DeletedRows | server.js:194-196 | `deleteMany` on one business leaves it no rows and leaves every other business's rows as they were |
| Dispatch.BaseUrl | server.js:12 | the base URL is never empty: the configured value when it is set and non-empty, else `http://localhost:3000` |
| Dispatch.AddressList | server.js:243 | the address list is empty exactly when both the forwarded-for header and the socket address are absent or empty; otherwise the header wins |
| Dispatch.FirstEntry | server.js:244 | the prefix of the address list up to its first comma, or all of it |
| Dispatch.ClientAddress | server.js:244 | the client address is trimmed and contains no comma |
| Dispatch.HeaderIpHash | server.js:243-245 | the stored hash is null exactly when the first comma-separated entry of the address list is all white space; otherwise it is the digest of that entry, trimmed |
| Dispatch.Redirect | server.js:231-253 | 400 on bad platform, then 404, both with no writes. No destination: landing page and no scan. Otherwise redirect to the destination, with exactly one scan event appended (business id, platform, user agent, referer, hash) and nothing else changed |
| Dispatch.QrCode | server.js:269-277 | 400 on inexact platform, 404 on unknown slug, otherwise a PNG of the stable address built from `BaseUrl(env)`, the slug and the platform |
| Dispatch.StableUrl | server.js:277 | the stable address has the base as prefix, then `/r/`, and its length is that of base, slug and key plus the four separator characters |
| Dispatch.StableUrlRoundTrip | server.js:231-233 | for a slug without `/`, the path after `/r/` splits back into exactly the slug and the key, and the key parses back to the platform |
| Dispatch.QrDependsOnlyOnSlugs | server.js:277 | stores with the same slugs give the same QR image whatever their destinations |
| Dispatch.QrLeadsToDestination | server.js:232-252 | the redirect for the slug and platform key of a QR code resolves to that platform's current destination, or the landing page |
| Dispatch.StableUrlSegments | server.js:277 | the path of a stable address after `/r/` has exactly the two segments of the route exactly when the slug holds no `/` |
| Dispatch.QrAddressLeadsToDestination | server.js:231-252 | for a slug without `/`, the two segments read back from the encoded address resolve to that platform's current destination, or the landing page |
| Slugs.CustomSlugKeepsSlash | server.js:44-45 | a custom slug holds `/` exactly when the trimmed submitted value does |
| Slugs.SlashedCustomSlug | server.js:44-45 | the custom slug `a/b` is stored as `a/b` |
| Analytics.CountFor | server.js:259-263 | a business's count for one platform never exceeds its number of scan events |
| Analytics.Report | server.js:259-264 | each listed count is that platform's number of events and positive; a platform is listed iff it has events; no platform twice; counts sum to the business's events |
| Analytics.CountsAddUp | server.js:259-263 | the three per-platform counts sum to the business's events |
| Analytics.AnalyticsJson | server.js:256-265 | 404 JSON error on unknown slug, else the slug with its report |
| Analytics.OnlyInstagram | server.js:264 | platforms with no scans are omitted, not reported as zero |
| Invariants.EmptyWellFormed | server.js:10 | the empty database is well formed |
| Invariants.UpdateKeepsWellFormed | server.js:87-106 | update keeps the store well formed: ids below next and distinct, no orphan rows, steps numbered 1..n per business |
| Invariants.ToggleKeepsWellFormed | server.js:155-186 | toggle keeps the store well formed |
| Invariants.ThemeKeepsWellFormed | server.js:109-152 | theme save keeps the store well formed, including step numbering |
| Invariants.CreateKeepsWellFormed | server.js:31-74 | create keeps the store well formed, and the new business owns exactly its parsed steps |
| Invariants.DeleteKeepsWellFormed | server.js:189-204 | delete keeps the store well formed |
| Invariants.RedirectKeepsWellFormed | server.js:231-253 | a scan keeps the store well formed |
| Invariants.ScanKeepsWellFormed | server.js:248-250 | appending one scan event for an existing business, and changing nothing else, keeps the store well formed |
| Invariants.DeleteUndoesCreate | server.js:194-197 | deleting a business just created restores the store, except that its id is used up |
| Invariants.CreatedHasNoScans | server.js:259-264 | a newly created business's analytics list no platform |
| Invariants.UpdateKeepsQr | server.js:277 | no update changes any QR image |
| Invariants.ToggleKeepsQr | server.js:277 | no toggle changes any QR image |
| Invariants.ThemeKeepsQr | server.js:277 | no theme save changes any QR image |
| Invariants.RedirectKeepsQr | server.js:277 | no scan changes any QR image |
| Invariants.CountOwned | server.js:262 | a business's count depends only on its own scan events |
| Invariants.ReportOwned | server.js:259-264 | two scan tables with the same events for a business give it the same report |
| Invariants.DeleteKeepsOtherReports | server.js:194-197 | deleting one business leaves every other business's analytics as they were |

## Left out

- Express routing, middleware, static files and the rendered views are I/O and
  templating: the home list, the admin page, the poster and flyer pages.
- The database layer itself is left out. Ids come from a `nextId` counter; `createdAt` is
  not kept.
- `groupBy` is modelled as a count in the fixed order Instagram, TikTok, YouTube. The
  database's own row order is unspecified.
- Transaction atomicity of update and the two separate writes of toggle are concurrency
  concerns. Each handler is one sequential step.
- Errors thrown by the database inside theme save, toggle and delete (the 500 paths) are
  not modelled. Nothing in the model fails there.
- Lifecycle.Create: the 500 body is modelled as the fixed prefix `Error creating
  business: ` without the database's message. A missing name counts as a failure.
- SHA-256 is a parameter `hash: string -> string` of the redirect.
- PNG encoding, its options and the cache headers of the QR route belong to a foreign
  library. The image is `Png(address)`, and the encoder's own 500 is left out.
- Unicode case mapping is left out: `toLowerCase`/`toUpperCase` map ASCII letters only.
  Other characters count as outside `[a-z0-9]`.
- Array-valued form fields (repeated keys) are left out. Every field is absent or one
  string.
- Logging to the console is left out.

=== FILE: analytics.dfy ===
/** Scan counts per platform (`GET /business/:slug/analytics.json`). The
    database's `groupBy` is modelled as a count over the scan table; the
    report lists platforms in the fixed order Instagram, TikTok, YouTube. */
module Analytics {
  import opened Platforms
  import opened Rows
  import opened Http
  import opened Store

  /** Number of scan events of business `id` for platform `p`. */
  function CountFor(scans: seq<Row<Scan>>, id: nat, p: Platform): (n: nat)
    ensures n <= |Owned(scans, id)|
  {
    if scans == [] then 0
    else
      var here := if scans[0].businessId == id && scans[0].value.platform == p then 1 else 0;
      here + CountFor(scans[1..], id, p)
  }

  /** The platforms a report lists. */
  function Listed(counts: seq<PlatformCount>): set<Platform> {
    set i | 0 <= i < |counts| :: counts[i].platform
  }

  /** Sum of the counts of a report. */
  function Total(counts: seq<PlatformCount>): nat {
    if counts == [] then 0 else counts[0].count + Total(counts[1..])
  }

  /** One group of the `groupBy`, present only when the platform has events. */
  function Group(scans: seq<Row<Scan>>, id: nat, p: Platform): (g: seq<PlatformCount>)
    ensures |g| <= 1
    ensures g != [] <==> CountFor(scans, id, p) > 0
    ensures g != [] ==> g[0] == PlatformCount(p, CountFor(scans, id, p))
  {
    if CountFor(scans, id, p) > 0 then [PlatformCount(p, CountFor(scans, id, p))] else []
  }

  /** The counts of business `id`: a platform appears exactly when it has
      at least one scan event, at most once, with the number of its events;
      platforms without events are left out, so the counts add up to the
      business's events. */
  function Report(scans: seq<Row<Scan>>, id: nat): (counts: seq<PlatformCount>)
    ensures forall i :: 0 <= i < |counts| ==>
      counts[i].count == CountFor(scans, id, counts[i].platform) && counts[i].count > 0
    ensures forall p :: p in Listed(counts) <==> CountFor(scans, id, p) > 0
    ensures forall i, j :: 0 <= i < j < |counts| ==> counts[i].platform != counts[j].platform
    ensures Total(counts) == |Owned(scans, id)|
  {
    var counts := Group(scans, id, Instagram) + Group(scans, id, TikTok) + Group(scans, id, YouTube);
    ReportCounts(scans, id);
    ReportListed(scans, id);
    ReportTotal(scans, id);
    counts
  }

  lemma ReportCounts(scans: seq<Row<Scan>>, id: nat)
    ensures var counts := Group(scans, id, Instagram) + Group(scans, id, TikTok) + Group(scans, id, YouTube);
      && (forall i :: 0 <= i < |counts| ==>
            counts[i].count == CountFor(scans, id, counts[i].platform) && counts[i].count > 0)
      && (forall i, j :: 0 <= i < j < |counts| ==> counts[i].platform != counts[j].platform)
  {
  }

  lemma ReportListed(scans: seq<Row<Scan>>, id: nat)
    ensures var counts := Group(scans, id, Instagram) + Group(scans, id, TikTok) + Group(scans, id, YouTube);
      forall p :: p in Listed(counts) <==> CountFor(scans, id, p) > 0
  {
    var g1, g2, g3 := Group(scans, id, Instagram), Group(scans, id, TikTok), Group(scans, id, YouTube);
    var counts := g1 + g2 + g3;
    forall p
      ensures p in Listed(counts) <==> CountFor(scans, id, p) > 0
    {
      if CountFor(scans, id, p) > 0 {
        var i := match p
          case Instagram => 0
          case TikTok => |g1|
          case YouTube => |g1| + |g2|;
        assert counts[i].platform == p;
      }
    }
  }

  lemma ReportTotal(scans: seq<Row<Scan>>, id: nat)
    ensures var counts := Group(scans, id, Instagram) + Group(scans, id, TikTok) + Group(scans, id, YouTube);
      Total(counts) == |Owned(scans, id)|
  {
    var g1, g2, g3 := Group(scans, id, Instagram), Group(scans, id, TikTok), Group(scans, id, YouTube);
    CountsAddUp(scans, id);
    TotalAppend(g1 + g2, g3);
    TotalAppend(g1, g2);
    assert Total(g1) == CountFor(scans, id, Instagram);
    assert Total(g2) == CountFor(scans, id, TikTok);
    assert Total(g3) == CountFor(scans, id, YouTube);
  }

  lemma {:induction false} TotalAppend(a: seq<PlatformCount>, b: seq<PlatformCount>)
    ensures Total(a + b) == Total(a) + Total(b)
  {
    if a == [] {
      assert a + b == b;
    } else {
      TotalAppend(a[1..], b);
      assert (a + b)[1..] == a[1..] + b;
    }
  }

  /** Every event of a business is counted under exactly one platform. */
  lemma {:induction false} CountsAddUp(scans: seq<Row<Scan>>, id: nat)
    ensures CountFor(scans, id, Instagram) + CountFor(scans, id, TikTok) + CountFor(scans, id, YouTube)
         == |Owned(scans, id)|
  {
    if scans != [] {
      CountsAddUp(scans[1..], id);
    }
  }

  /** `GET /business/:slug/analytics.json`: 404 for an unknown slug,
      otherwise the business's slug and its report. Nothing is written. */
  function AnalyticsJson(s: Store, slug: string): (r: Response)
    ensures slug !in s.businesses ==> r == JsonError(404, "Not found")
    ensures slug in s.businesses ==>
      r.Counts? && r.business == slug && r.counts == Report(s.scans, s.businesses[slug].id)
  {
    if slug !in s.businesses then JsonError(404, "Not found")
    else Counts(slug, Report(s.scans, s.businesses[slug].id))
  }

  /** A business whose only scans are on Instagram gets a one-entry report;
      TikTok and YouTube are omitted rather than reported as zero. */
  lemma OnlyInstagram(scans: seq<Row<Scan>>, id: nat)
    requires CountFor(scans, id, TikTok) == 0 && CountFor(scans, id, YouTube) == 0
    requires CountFor(scans, id, Instagram) > 0
    ensures Report(scans, id) == [PlatformCount(Instagram, |Owned(scans, id)|)]
  {
    CountsAddUp(scans, id);
  }
}

=== FILE: dispatch.dfy ===
/** The public side: the redirect a QR code points at (`GET /r/:slug/:platform`),
    which logs a scan event, and the QR image itself
    (`GET /qr/:slug/:platform.png`), which encodes that stable redirect
    address rather than the destination. */
module Dispatch {
  import opened Fields
  import opened Text
  import opened Platforms
  import opened Rows
  import opened Http
  import opened Store

  /** The public base address: the configured `BASE_URL` when it is set
      and non-empty, otherwise the local default. It is never empty. */
  function BaseUrl(env: Option<string>): (base: string)
    ensures base != ""
    ensures Truthy(env) ==> base == env.value
    ensures !Truthy(env) ==> base == "http://localhost:3000"
  {
    if Truthy(env) then env.value else "http://localhost:3000"
  }

  /** What the redirect handler reads from the request. */
  datatype ScanRequest = ScanRequest(
    slug: string,
    platform: string,
    userAgent: Option<string>,     // the `user-agent` header
    forwardedFor: Option<string>,  // the `x-forwarded-for` header
    remoteAddress: Option<string>, // the socket's peer address
    referer: Option<string>)       // the `referer` header

  /** The address list to read the client from: the forwarded-for header
      when non-empty, else the socket's address when non-empty. It is
      empty only when neither is available. */
  function AddressList(forwardedFor: Option<string>, remoteAddress: Option<string>): (raw: string)
    ensures raw == "" <==> !Truthy(forwardedFor) && !Truthy(remoteAddress)
    ensures Truthy(forwardedFor) ==> raw == forwardedFor.value
    ensures !Truthy(forwardedFor) && Truthy(remoteAddress) ==> raw == remoteAddress.value
    ensures !Truthy(forwardedFor) && !Truthy(remoteAddress) ==> raw == ""
  {
    if Truthy(forwardedFor) then forwardedFor.value
    else if Truthy(remoteAddress) then remoteAddress.value
    else ""
  }

  /** The first comma-separated entry: the prefix of `raw` that ends at
      the first comma, or all of `raw` when it has none. */
  function FirstEntry(raw: string): (e: string)
    ensures e <= raw
    ensures ',' !in e
    ensures |e| == |raw| || raw[|e|] == ','
  {
    FirstPiece(raw, ',');
    Split(raw, ',')[0]
  }

  /** The client address: the first entry, trimmed. It carries no comma
      and no surrounding whitespace. */
  function ClientAddress(raw: string): (ip: string)
    ensures Trim(ip) == ip
    ensures ',' !in ip
  {
    var entry := FirstEntry(raw);
    TrimIdempotent(entry);
    NoCommaAfterTrim(entry);
    Trim(entry)
  }

  lemma NoCommaAfterTrim(entry: string)
    requires ',' !in entry
    ensures ',' !in Trim(entry)
  {
    var ip := Trim(entry);
    var n := LeadingSpaces(entry);
    assert ip == entry[n..n + |ip|];
    forall i | 0 <= i < |ip| ensures ip[i] != ',' {
      assert ip[i] == entry[n + i];
    }
  }

  /** The stored client hash: the digest of a non-empty address, null for
      an empty one. The digest function is a parameter of the model. */
  function IpHash(hash: string -> string, ip: string): (h: Option<string>)
    ensures h.None? <==> ip == ""
    ensures h.Some? ==> h.value == hash(ip)
  {
    if ip != "" then Some(hash(ip)) else None
  }

  /** Read from the header, the hash is null exactly when the first entry
      of the address list is blank, and otherwise it is the digest of that
      entry without its surrounding white space. */
  lemma HeaderIpHash(hash: string -> string, raw: string)
    ensures IpHash(hash, ClientAddress(raw)).None? <==> AllSpace(FirstEntry(raw))
    ensures !AllSpace(FirstEntry(raw)) ==>
      IpHash(hash, ClientAddress(raw)) == Some(hash(Trim(FirstEntry(raw))))
  {
  }

  /** `GET /r/:slug/:platform`. The platform is lower-cased and checked
      first (400), then the slug (404). A platform with no destination
      sends the scanner to the landing page and logs nothing; otherwise
      exactly one scan event is appended and the scanner is sent to the
      destination. */
  function Redirect(s: Store, hash: string -> string, req: ScanRequest): (h: Handled)
    ensures ParseLowered(Some(req.platform)).None? ==> h == Handled(InvalidPlatform, s)
    ensures ParseLowered(Some(req.platform)).Some? && req.slug !in s.businesses ==> h == Handled(NotFound, s)
    ensures ParseLowered(Some(req.platform)).Some? && req.slug in s.businesses ==>
      var b := s.businesses[req.slug];
      var p := ParseLowered(Some(req.platform)).value;
      var ip := ClientAddress(AddressList(req.forwardedFor, req.remoteAddress));
      if !Truthy(Url(b, p)) then
        h == Handled(Found(LandingPage(req.slug)), s)
      else
        && h.response == Found(Url(b, p).value)
        && h.store == s.(scans := h.store.scans)
        && |h.store.scans| == |s.scans| + 1
        && h.store.scans[..|s.scans|] == s.scans
        && var e := h.store.scans[|s.scans|];
           && e.businessId == b.id
           && e.value.platform == p
           && e.value.userAgent == OrNull(req.userAgent)
           && e.value.referer == OrNull(req.referer)
           && (e.value.ipHash.None? <==> ip == "")
           && (e.value.ipHash.Some? ==> e.value.ipHash.value == hash(ip))
  {
    match ParseLowered(Some(req.platform))
    case None => Handled(InvalidPlatform, s)
    case Some(p) =>
      if req.slug !in s.businesses then Handled(NotFound, s)
      else
        var b := s.businesses[req.slug];
        var target := Url(b, p);
        if !Truthy(target) then Handled(Found(LandingPage(req.slug)), s)
        else
          var ip := ClientAddress(AddressList(req.forwardedFor, req.remoteAddress));
          var event := Row(b.id, Scan(p, OrNull(req.userAgent), IpHash(hash, ip), OrNull(req.referer)));
          var s' := s.(scans := s.scans + [event]);
          assert s'.scans[..|s.scans|] == s.scans;
          Handled(Found(target.value), s')
  }

  /** The stable address a QR code encodes: the base address, then the
      redirect path `/r/`, the slug and the platform key, separated by
      slashes. */
  function StableUrl(base: string, slug: string, p: Platform): (u: string)
    ensures |u| == |base| + 3 + |slug| + 1 + |Key(p)|
    ensures u[..|base|] == base && u[|base|..|base| + 3] == "/r/"
  {
    base + "/r/" + slug + "/" + Key(p)
  }

  /** The redirect path of a stable address splits back into the slug and
      the platform key, and the key parses to the platform, so the redirect
      handler resolves the business and platform the image was made for
      (for a slug without `/`, which every name-derived slug is). */
  lemma StableUrlRoundTrip(base: string, slug: string, p: Platform)
    requires '/' !in slug
    ensures var parts := Split(StableUrl(base, slug, p)[|base| + 3..], '/');
      parts == [slug, Key(p)] && ParseLowered(Some(parts[1])) == Some(p)
  {
    var u := StableUrl(base, slug, p);
    assert u[|base| + 3..] == slug + ['/'] + Key(p);
    SplitAround(slug, '/', Key(p));
    SplitNoSep(slug, '/');
    KeyHasNoSlash(p);
    SplitNoSep(Key(p), '/');
    ParseKey(p);
  }

  lemma KeyHasNoSlash(p: Platform)
    ensures '/' !in Key(p)
  {
  }

  /** `GET /qr/:slug/:platform.png`. The platform must match a key exactly
      (400), then the slug must exist (404); the image encodes the stable
      redirect address, which depends only on the base URL, the slug and
      the platform. */
  function QrCode(s: Store, env: Option<string>, slug: string, platform: string): (r: Response)
    ensures Parse(platform).None? ==> r == InvalidPlatform
    ensures Parse(platform).Some? && slug !in s.businesses ==> r == NotFound
    ensures Parse(platform).Some? && slug in s.businesses ==>
      r == Png(StableUrl(BaseUrl(env), slug, Parse(platform).value))
  {
    match Parse(platform)
    case None => InvalidPlatform
    case Some(p) =>
      if slug !in s.businesses then NotFound
      else Png(BaseUrl(env) + "/r/" + slug + "/" + platform)
  }

  /** The QR image depends on the store only through its set of slugs: two
      stores with the same businesses, whatever their destinations, give
      the same image for every slug and platform. */
  lemma QrDependsOnlyOnSlugs(s: Store, s': Store, env: Option<string>, slug: string, platform: string)
    requires s.businesses.Keys == s'.businesses.Keys
    ensures QrCode(s', env, slug, platform) == QrCode(s, env, slug, platform)
  {
  }

  /** The redirect for a QR code's slug and platform key resolves the same
      platform and sends the scanner to that platform's destination, or to
      the landing page when there is none. Whether the encoded address
      actually reaches the redirect is `StableUrlSegments`. */
  lemma QrLeadsToDestination(s: Store, hash: string -> string, slug: string, p: Platform,
                             ua: Option<string>, xff: Option<string>, remote: Option<string>,
                             referer: Option<string>)
    requires slug in s.businesses
    ensures var r := Redirect(s, hash, ScanRequest(slug, Key(p), ua, xff, remote, referer)).response;
      r == Found(if Truthy(Url(s.businesses[slug], p)) then Url(s.businesses[slug], p).value
                 else LandingPage(slug))
  {
    ParseKey(p);
  }

  /** The path of a stable address after `/r/` has exactly the two
      segments the route `/r/:slug/:platform` expects exactly when the slug
      holds no `/`; a slug with one yields more segments, so its QR code
      never reaches the redirect. */
  lemma StableUrlSegments(base: string, slug: string, p: Platform)
    ensures |Split(StableUrl(base, slug, p)[|base| + 3..], '/')| == 2 <==> '/' !in slug
  {
    var u := StableUrl(base, slug, p);
    assert u[|base| + 3..] == slug + ['/'] + Key(p);
    SplitAround(slug, '/', Key(p));
    SeparatorSplits(slug, '/');
    KeyHasNoSlash(p);
    SplitNoSep(Key(p), '/');
  }

  /** Scanning a QR code whose slug holds no `/` lands on the current
      destination: the two segments of its encoded address, read back as
      the route's slug and platform, resolve to that platform's destination,
      or to the landing page when there is none. */
  lemma QrAddressLeadsToDestination(s: Store, hash: string -> string, base: string, slug: string,
                                    p: Platform, ua: Option<string>, xff: Option<string>,
                                    remote: Option<string>, referer: Option<string>)
    requires slug in s.businesses && '/' !in slug
    ensures var parts := Split(StableUrl(base, slug, p)[|base| + 3..], '/');
      && |parts| == 2
      && Redirect(s, hash, ScanRequest(parts[0], parts[1], ua, xff, remote, referer)).response
         == Found(if Truthy(Url(s.businesses[slug], p)) then Url(s.businesses[slug], p).value
                  else LandingPage(slug))
  {
    StableUrlRoundTrip(base, slug, p);
    QrLeadsToDestination(s, hash, slug, p, ua, xff, remote, referer);
  }
}

=== FILE: fields.dfy ===
/** Request fields as a form handler sees them: a field is either absent
    (`undefined`) or a string. The helpers below give JavaScript's `||`
    idioms on such fields a name. */
module Fields {

  datatype Option<+T> = None | Some(value: T) {

    /** The wrapped value, or `default` when absent. */
    function GetOr(default: T): T {
      match this
      case Some(v) => v
      case None => default
    }
  }

  /** JavaScript truthiness of a string-or-undefined: present and non-empty. */
  predicate Truthy(f: Option<string>) {
    f.Some? && f.value != ""
  }

  /** `f || null`: a falsy field is stored as null. */
  function OrNull(f: Option<string>): (r: Option<string>)
    ensures r.Some? <==> Truthy(f)
    ensures r.Some? ==> r == f && r.value != ""
  {
    if Truthy(f) then f else None
  }

  /** `f || ''`: a falsy field reads as the empty string. */
  function OrEmpty(f: Option<string>): (r: string)
    ensures r == "" <==> !Truthy(f)
    ensures Truthy(f) ==> r == f.value
  {
    if Truthy(f) then f.value else ""
  }
}

=== FILE: http.dfy ===
/** What a handler answers: a redirect, a plain-text status (`Plain`), or one of the
    two payload responses. */
module Http {
  import opened Platforms

  /** One entry of the analytics report. */
  datatype PlatformCount = PlatformCount(platform: Platform, count: nat)

  datatype Response =
    | Found(location: string)                              // `res.redirect(location)`, a 302
    | Plain(status: nat, body: string)                     // `res.status(status).send(body)`
    | JsonError(status: nat, error: string)                // `res.status(status).json({ error })`
    | Counts(business: string, counts: seq<PlatformCount>) // `res.json({ business, counts })`
    | Png(encodes: string)                                 // a QR image of the string `encodes`

  const NotFound: Response := Plain(404, "Not found")
  const InvalidPlatform: Response := Plain(400, "Invalid platform")
  const UrlRequired: Response := Plain(400, "Provide a URL to enable this platform.")
  /** The create handler's 500 answer; the database's own message that
      follows this prefix is not modelled. */
  const CreateFailed: Response := Plain(500, "Error creating business: ")

  /** The admin page of a business, where every admin form returns to. */
  function AdminPage(slug: string): string {
    "/business/" + slug
  }

  /** The public landing page (the poster) of a business. */
  function LandingPage(slug: string): string {
    "/p/" + slug
  }

  const HomePage: string := "/"
}

=== FILE: invariants.dfy ===
/** Store invariants every handler keeps, and the facts about the QR image
    and the reports that follow from them. */
module Invariants {
  import opened Fields
  import opened Platforms
  import opened Slugs
  import opened Steps
  import opened Rows
  import opened Http
  import opened Store
  import opened Registry
  import opened Lifecycle
  import opened Dispatch
  import opened Analytics

  /** The empty database is well formed, so every store reached from it by
      the handlers is too. */
  lemma EmptyWellFormed()
    ensures WellFormed(Store(map[], [], [], [], 0))
  {
    assert Ids(Store(map[], [], [], [], 0)) == {};
  }

  /** Replacing one business by another with the same id keeps the ids. */
  lemma SameIds(s: Store, s': Store, slug: string)
    requires slug in s.businesses && s'.businesses.Keys == s.businesses.Keys
    requires s'.businesses[slug].id == s.businesses[slug].id
    requires forall k :: k in s.businesses && k != slug ==> s'.businesses[k] == s.businesses[k]
    ensures Ids(s') == Ids(s)
    ensures forall k :: k in s.businesses ==> s'.businesses[k].id == s.businesses[k].id
  {
    assert forall k :: k in s.businesses ==> s'.businesses[k].id == s.businesses[k].id;
    assert Ids(s') == Ids(s) by {
      forall x | x in Ids(s) ensures x in Ids(s') {
        var k :| k in s.businesses && s.businesses[k].id == x;
        assert s'.businesses[k].id == x;
      }
    }
  }

  /** A handler that rewrites one business in place (same ids) and leaves
      the steps and history alone while scans only grow by rows of that
      business keeps the store well formed. */
  lemma InPlace(s: Store, s': Store, slug: string)
    requires WellFormed(s) && slug in s.businesses && s'.businesses.Keys == s.businesses.Keys
    requires s'.businesses[slug].id == s.businesses[slug].id
    requires forall k :: k in s.businesses && k != slug ==> s'.businesses[k] == s.businesses[k]
    requires s'.steps == s.steps && s'.nextId == s.nextId
    requires OwnersIn(s'.history, Ids(s)) && OwnersIn(s'.scans, Ids(s))
    ensures WellFormed(s')
  {
    SameIds(s, s', slug);
  }

  lemma UpdateKeepsWellFormed(s: Store, slug: string, platform: Option<string>, newUrl: Option<string>)
    requires WellFormed(s)
    ensures WellFormed(Update(s, slug, platform, newUrl).store)
  {
    var h := Update(s, slug, platform, newUrl);
    if slug in s.businesses && ParseLowered(platform).Some? {
      InPlace(s, h.store, slug);
    }
  }

  lemma ToggleKeepsWellFormed(s: Store, slug: string, platform: Option<string>, enabled: Option<string>,
                              newUrl: Option<string>)
    requires WellFormed(s)
    ensures WellFormed(Toggle(s, slug, platform, enabled, newUrl).store)
  {
    var h := Toggle(s, slug, platform, enabled, newUrl);
    if h.store != s {
      InPlace(s, h.store, slug);
    }
  }

  lemma RedirectKeepsWellFormed(s: Store, hash: string -> string, req: ScanRequest)
    requires WellFormed(s)
    ensures WellFormed(Redirect(s, hash, req).store)
  {
    var h := Redirect(s, hash, req);
    var p := ParseLowered(Some(req.platform));
    if p.Some? && req.slug in s.businesses && Truthy(Url(s.businesses[req.slug], p.value)) {
      ScanKeepsWellFormed(s, h.store, h.store.scans[|s.scans|], req.slug);
    } else {
      assert h.store == s;
    }
  }

  /** Appending one scan event of a stored business keeps the store well
      formed. */
  lemma ScanKeepsWellFormed(s: Store, s': Store, e: Row<Scan>, slug: string)
    requires WellFormed(s) && slug in s.businesses && e.businessId == s.businesses[slug].id
    requires s' == s.(scans := s'.scans)
    requires |s'.scans| == |s.scans| + 1 && s'.scans[..|s.scans|] == s.scans && s'.scans[|s.scans|] == e
    ensures WellFormed(s')
  {
    assert Ids(s') == Ids(s);
    assert e.businessId in Ids(s);
    forall i | 0 <= i < |s'.scans| ensures s'.scans[i].businessId in Ids(s') {
      if i < |s.scans| {
        assert s'.scans[i] == s.scans[i];
      }
    }
  }

  lemma ThemeKeepsWellFormed(s: Store, slug: string, f: ThemeForm)
    requires WellFormed(s)
    ensures WellFormed(SaveTheme(s, slug, f).store)
  {
    if slug in s.businesses {
      var s' := SaveTheme(s, slug, f).store;
      var id := s.businesses[slug].id;
      var added := StepRows(id, ParseSteps(f.steps));
      SameIds(s, s', slug);
      assert s'.steps == Without(s.steps, id) + added;
      ReplacedOwners(s.steps, Ids(s), id, added);
      ReplacedNumbered(s, s', slug);
    }
  }

  /** Replacing the rows of a stored business by rows of that business
      keeps every row owned by a stored business. */
  lemma ReplacedOwners<T>(rows: seq<Row<T>>, ids: set<nat>, id: nat, added: seq<Row<T>>)
    requires OwnersIn(rows, ids) && id in ids
    requires forall i :: 0 <= i < |added| ==> added[i].businessId == id
    ensures OwnersIn(Without(rows, id) + added, ids)
  {
    OwnersWithout(rows, ids, id);
    var r := Without(rows, id) + added;
    forall i | 0 <= i < |r| ensures r[i].businessId in ids {
      if i >= |Without(rows, id)| {
        assert r[i] == added[i - |Without(rows, id)|];
      }
    }
  }

  /** A business whose steps were renumbered from 1, beside businesses
      whose steps did not change, keeps every business numbered. */
  lemma ReplacedNumbered(s: Store, s': Store, slug: string)
    requires StepsNumbered(s) && IdsDistinct(s) && slug in s.businesses
    requires s'.businesses.Keys == s.businesses.Keys
    requires forall k :: k in s.businesses ==> s'.businesses[k].id == s.businesses[k].id
    requires Numbered(Owned(s'.steps, s.businesses[slug].id))
    requires forall id :: id != s.businesses[slug].id ==> Owned(s'.steps, id) == Owned(s.steps, id)
    ensures StepsNumbered(s')
  {
    var id := s.businesses[slug].id;
    forall k | k in s'.businesses
      ensures Numbered(Owned(s'.steps, s'.businesses[k].id))
    {
      if k != slug {
        assert s.businesses[k].id != id;
      }
    }
  }

  lemma CreateKeepsWellFormed(s: Store, f: CreateForm)
    requires WellFormed(s)
    ensures WellFormed(Create(s, f).store)
    ensures f.name.Some? && DeriveSlug(f.name.value, f.slug) !in s.businesses ==>
      Owned(Create(s, f).store.steps, s.nextId) == StepRows(s.nextId, ParseSteps(f.steps))
  {
    if f.name.Some? && DeriveSlug(f.name.value, f.slug) !in s.businesses {
      var slug := DeriveSlug(f.name.value, f.slug);
      var s' := Create(s, f).store;
      var added := StepRows(s.nextId, ParseSteps(f.steps));
      CreatedIds(s, s', slug);
      assert s'.steps == s.steps + added;
      CreatedSteps(s, s', slug, added);
    }
  }

  /** Deleting a business right after creating it restores the store,
      except that the id it used is not handed out again. */
  lemma DeleteUndoesCreate(s: Store, f: CreateForm)
    requires WellFormed(s)
    requires f.name.Some? && DeriveSlug(f.name.value, f.slug) !in s.businesses
    ensures var slug := DeriveSlug(f.name.value, f.slug);
      Delete(Create(s, f).store, slug) == Handled(Found(HomePage), s.(nextId := s.nextId + 1))
  {
    var slug := DeriveSlug(f.name.value, f.slug);
    DeleteAdded(s, Create(s, f).store, slug, StepRows(s.nextId, ParseSteps(f.steps)));
  }

  /** Deleting a business that was added to a well-formed store with a
      fresh id, together with its new step rows, gives back that store with
      only the id counter advanced. */
  lemma DeleteAdded(s: Store, s1: Store, slug: string, added: seq<Row<Step>>)
    requires WellFormed(s) && slug !in s.businesses
    requires s1.businesses.Keys == s.businesses.Keys + {slug}
    requires forall k :: k in s.businesses ==> s1.businesses[k] == s.businesses[k]
    requires s1.businesses[slug].id == s.nextId && s1.nextId == s.nextId + 1
    requires forall i :: 0 <= i < |added| ==> added[i].businessId == s.nextId
    requires s1.steps == s.steps + added && s1.history == s.history && s1.scans == s.scans
    ensures Delete(s1, slug) == Handled(Found(HomePage), s.(nextId := s.nextId + 1))
  {
    CreatedIds(s, s1, slug);
    RemoveAdded(s.steps, Ids(s), s.nextId, added);
    WithoutOutside(s.history, Ids(s), s.nextId);
    WithoutOutside(s.scans, Ids(s), s.nextId);
    RemoveAddedKey(s.businesses, s1.businesses, slug);
    DeleteStore(s1, slug);
  }

  /** Removing a key that was just added to a map gives back the map. */
  lemma RemoveAddedKey(before: map<string, Business>, after: map<string, Business>, slug: string)
    requires slug !in before && after.Keys == before.Keys + {slug}
    requires forall k :: k in before ==> after[k] == before[k]
    ensures (map k | k in after && k != slug :: after[k]) == before
  {
  }

  /** What a delete of a stored slug leaves. */
  lemma DeleteStore(s: Store, slug: string)
    requires slug in s.businesses
    ensures var id := s.businesses[slug].id;
      Delete(s, slug) == Handled(Found(HomePage), Store(
        map k | k in s.businesses && k != slug :: s.businesses[k],
        Without(s.steps, id), Without(s.history, id), Without(s.scans, id), s.nextId))
  {
  }

  /** Deleting the rows of an id nobody else used removes exactly the rows
      just added for it. */
  lemma RemoveAdded<T>(rows: seq<Row<T>>, ids: set<nat>, id: nat, added: seq<Row<T>>)
    requires OwnersIn(rows, ids) && id !in ids
    requires forall i :: 0 <= i < |added| ==> added[i].businessId == id
    ensures Without(rows + added, id) == rows
  {
    WithoutAppend(rows, added, id);
    WithoutOutside(rows, ids, id);
    WithoutAll(added, id);
    assert rows + [] == rows;
  }

  /** A newly created business has no scans yet: its analytics list no
      platform at all. */
  lemma CreatedHasNoScans(s: Store, f: CreateForm)
    requires WellFormed(s)
    requires f.name.Some? && DeriveSlug(f.name.value, f.slug) !in s.businesses
    ensures var slug := DeriveSlug(f.name.value, f.slug);
      AnalyticsJson(Create(s, f).store, slug) == Counts(slug, [])
  {
    var slug := DeriveSlug(f.name.value, f.slug);
    CreatedIds(s, Create(s, f).store, slug);
    OwnedOutside(s.scans, Ids(s), s.nextId);
    var counts := Report(s.scans, s.nextId);
    assert Listed(counts) == {};
  }

  /** The ids after a create: the old ones and the next id. */
  lemma CreatedIds(s: Store, s': Store, slug: string)
    requires IdsBelowNext(s) && IdsDistinct(s) && slug !in s.businesses
    requires s'.businesses.Keys == s.businesses.Keys + {slug}
    requires forall k :: k in s.businesses ==> s'.businesses[k] == s.businesses[k]
    requires s'.businesses[slug].id == s.nextId && s'.nextId == s.nextId + 1
    ensures Ids(s') == Ids(s) + {s.nextId} && s.nextId !in Ids(s)
    ensures IdsBelowNext(s') && IdsDistinct(s')
  {
    forall x | x in Ids(s') ensures x in Ids(s) + {s.nextId} {
      var k :| k in s'.businesses && s'.businesses[k].id == x;
      if k != slug {
        assert s.businesses[k].id == x;
      }
    }
    forall x | x in Ids(s) ensures x in Ids(s') {
      var k :| k in s.businesses && s.businesses[k].id == x;
      assert s'.businesses[k].id == x;
    }
    assert s.nextId in Ids(s');
  }

  /** The steps after a create: every business keeps its numbered steps and
      the new one owns exactly the added rows. */
  lemma CreatedSteps(s: Store, s': Store, slug: string, added: seq<Row<Step>>)
    requires WellFormed(s) && slug !in s.businesses
    requires s'.businesses.Keys == s.businesses.Keys + {slug}
    requires forall k :: k in s.businesses ==> s'.businesses[k] == s.businesses[k]
    requires s'.businesses[slug].id == s.nextId
    requires Ids(s') == Ids(s) + {s.nextId} && s.nextId !in Ids(s)
    requires s'.steps == s.steps + added && s'.history == s.history && s'.scans == s.scans
    requires forall i :: 0 <= i < |added| ==> added[i].businessId == s.nextId
    requires Numbered(added)
    ensures Owned(s'.steps, s.nextId) == added
    ensures NoOrphans(s') && StepsNumbered(s')
  {
    AddedOwners(s.steps, Ids(s), s.nextId, added);
    assert OwnersIn(s'.history, Ids(s')) && OwnersIn(s'.scans, Ids(s'));
    OwnedOutside(s.steps, Ids(s), s.nextId);
    OwnedAppend(s.steps, added, s.nextId);
    OwnedAll(added, s.nextId);
    AddedNumbered(s, s', slug, added);
  }

  /** Appending the numbered steps of a new business keeps every business's
      steps numbered. */
  lemma AddedNumbered(s: Store, s': Store, slug: string, added: seq<Row<Step>>)
    requires StepsNumbered(s) && slug !in s.businesses && s.nextId !in Ids(s)
    requires s'.businesses.Keys == s.businesses.Keys + {slug}
    requires forall k :: k in s.businesses ==> s'.businesses[k] == s.businesses[k]
    requires s'.businesses[slug].id == s.nextId
    requires s'.steps == s.steps + added
    requires forall i :: 0 <= i < |added| ==> added[i].businessId == s.nextId
    requires Owned(s'.steps, s.nextId) == added && Numbered(added)
    ensures StepsNumbered(s')
  {
    forall k | k in s'.businesses
      ensures Numbered(Owned(s'.steps, s'.businesses[k].id))
    {
      if k != slug {
        var id := s.businesses[k].id;
        assert id in Ids(s);
        OwnedAppend(s.steps, added, id);
        OwnedNone(added, id);
      }
    }
  }

  lemma DeleteKeepsWellFormed(s: Store, slug: string)
    requires WellFormed(s)
    ensures WellFormed(Delete(s, slug).store)
  {
    if slug in s.businesses {
      var s' := Delete(s, slug).store;
      var id := s.businesses[slug].id;
      assert Ids(s) - {id} <= Ids(s') by {
        forall x | x in Ids(s) - {id} ensures x in Ids(s') {
          var k :| k in s.businesses && s.businesses[k].id == x;
          assert k != slug && s'.businesses[k].id == x;
        }
      }
      OwnersWithout(s.steps, Ids(s), id);
      OwnersWithout(s.history, Ids(s), id);
      OwnersWithout(s.scans, Ids(s), id);
      assert s'.steps == Without(s.steps, id);
      assert s'.history == Without(s.history, id);
      assert s'.scans == Without(s.scans, id);
      forall k | k in s'.businesses
        ensures Numbered(Owned(s'.steps, s'.businesses[k].id))
      {
        assert s.businesses[k].id != id;
      }
    }
  }

  /** No destination change, toggle, theme save or scan changes any QR
      image: each keeps the set of slugs. */
  lemma UpdateKeepsQr(s: Store, target: string, op: Option<string>, url: Option<string>,
                      env: Option<string>, slug: string, platform: string)
    ensures QrCode(Update(s, target, op, url).store, env, slug, platform) == QrCode(s, env, slug, platform)
  {
    QrDependsOnlyOnSlugs(s, Update(s, target, op, url).store, env, slug, platform);
  }

  lemma ToggleKeepsQr(s: Store, target: string, op: Option<string>, enabled: Option<string>,
                      url: Option<string>, env: Option<string>, slug: string, platform: string)
    ensures QrCode(Toggle(s, target, op, enabled, url).store, env, slug, platform) == QrCode(s, env, slug, platform)
  {
    QrDependsOnlyOnSlugs(s, Toggle(s, target, op, enabled, url).store, env, slug, platform);
  }

  lemma ThemeKeepsQr(s: Store, target: string, f: ThemeForm, env: Option<string>, slug: string, platform: string)
    ensures QrCode(SaveTheme(s, target, f).store, env, slug, platform) == QrCode(s, env, slug, platform)
  {
    QrDependsOnlyOnSlugs(s, SaveTheme(s, target, f).store, env, slug, platform);
  }

  lemma RedirectKeepsQr(s: Store, hash: string -> string, req: ScanRequest, env: Option<string>, slug: string,
                        platform: string)
    ensures QrCode(Redirect(s, hash, req).store, env, slug, platform) == QrCode(s, env, slug, platform)
  {
    QrDependsOnlyOnSlugs(s, Redirect(s, hash, req).store, env, slug, platform);
  }

  /** A business's counts depend only on its own scan events. */
  lemma {:induction false} CountOwned(scans: seq<Row<Scan>>, id: nat, p: Platform)
    ensures CountFor(scans, id, p) == CountFor(Owned(scans, id), id, p)
  {
    if scans != [] {
      CountOwned(scans[1..], id, p);
      if scans[0].businessId == id {
        assert Owned(scans, id)[1..] == Owned(scans[1..], id);
      }
    }
  }

  /** Two scan tables with the same events for a business give it the
      same report. */
  lemma ReportOwned(scans: seq<Row<Scan>>, scans': seq<Row<Scan>>, id: nat)
    requires Owned(scans, id) == Owned(scans', id)
    ensures Report(scans, id) == Report(scans', id)
  {
    forall p
      ensures CountFor(scans, id, p) == CountFor(scans', id, p)
    {
      CountOwned(scans, id, p);
      CountOwned(scans', id, p);
    }
    assert Group(scans, id, Instagram) == Group(scans', id, Instagram);
    assert Group(scans, id, TikTok) == Group(scans', id, TikTok);
    assert Group(scans, id, YouTube) == Group(scans', id, YouTube);
  }

  /** Deleting one business leaves every other business's report as it
      was. */
  lemma DeleteKeepsOtherReports(s: Store, slug: string, other: string)
    requires WellFormed(s) && slug in s.businesses && other in s.businesses && other != slug
    ensures AnalyticsJson(Delete(s, slug).store, other) == AnalyticsJson(s, other)
  {
    var s' := Delete(s, slug).store;
    var id := s.businesses[other].id;
    assert id != s.businesses[slug].id;
    assert other in s'.businesses && s'.businesses[other] == s.businesses[other];
    ReportOwned(s'.scans, s.scans, id);
  }
}

=== FILE: lifecycle.dfy ===
/** Creating a business (`POST /business`) and deleting one with everything
    it owns (`POST /business/:slug/delete`). */
module Lifecycle {
  import opened Fields
  import opened Platforms
  import opened Slugs
  import opened Steps
  import opened Rows
  import opened Http
  import opened Store
  import Registry

  /** The fields of the create form. */
  datatype CreateForm = CreateForm(
    name: Option<string>,
    slug: Option<string>,
    logoUrl: Option<string>,
    brandColor: Option<string>,
    publicTitle: Option<string>,
    publicSubtitle: Option<string>,
    publicFooter: Option<string>,
    ctaLabel: Option<string>,
    ctaText: Option<string>,
    instagramUrl: Option<string>,
    tiktokUrl: Option<string>,
    youtubeUrl: Option<string>,
    showLogo: Option<string>,
    qrLayout: Option<string>,
    steps: Option<string>)

  /** The destination the create form submits for one platform. */
  function CreateUrl(f: CreateForm, p: Platform): Option<string> {
    match p
    case Instagram => f.instagramUrl
    case TikTok => f.tiktokUrl
    case YouTube => f.youtubeUrl
  }

  /** `POST /business`: stores a new business under the derived slug with
      the next id, then one step row per non-blank line of the steps
      textarea. Only the brand colour is normalised with `|| null`; the
      other text fields are stored as submitted. A slug already in use
      violates the unique constraint and the handler answers 500; so does
      a request without a name, which either fails on `name.toLowerCase()`
      or is refused by the required `name` column. */
  function Create(s: Store, f: CreateForm): (h: Handled)
    ensures f.name.None? ==> h == Handled(CreateFailed, s)
    ensures f.name.Some? && DeriveSlug(f.name.value, f.slug) in s.businesses ==> h == Handled(CreateFailed, s)
    ensures f.name.Some? && DeriveSlug(f.name.value, f.slug) !in s.businesses ==>
      var slug := DeriveSlug(f.name.value, f.slug);
      && h.response == Found(AdminPage(slug))
      && h.store.businesses.Keys == s.businesses.Keys + {slug}
      && (forall k :: k in s.businesses ==> h.store.businesses[k] == s.businesses[k])
      && h.store.businesses[slug].id == s.nextId
      && h.store.businesses[slug].name == f.name.value
      && h.store.businesses[slug].theme == Theme(
           f.logoUrl, OrNull(f.brandColor), f.publicTitle, f.publicSubtitle, f.publicFooter,
           f.ctaLabel, f.ctaText, Truthy(f.showLogo), Registry.LayoutOf(f.qrLayout))
      && (forall p :: Url(h.store.businesses[slug], p) == CreateUrl(f, p))
      && h.store.steps == s.steps + StepRows(s.nextId, ParseSteps(f.steps))
      && h.store.history == s.history && h.store.scans == s.scans
      && h.store.nextId == s.nextId + 1
  {
    if f.name.None? then Handled(CreateFailed, s)
    else
      var slug := DeriveSlug(f.name.value, f.slug);
      if slug in s.businesses then Handled(CreateFailed, s)
      else
        var theme := Theme(
          f.logoUrl, OrNull(f.brandColor), f.publicTitle, f.publicSubtitle, f.publicFooter,
          f.ctaLabel, f.ctaText, Truthy(f.showLogo), Registry.LayoutOf(f.qrLayout));
        var b := Business(s.nextId, f.name.value, theme, Links(f.instagramUrl, f.tiktokUrl, f.youtubeUrl));
        var s' := Store(
          s.businesses[slug := b],
          s.steps + StepRows(s.nextId, ParseSteps(f.steps)),
          s.history,
          s.scans,
          s.nextId + 1);
        Handled(Found(AdminPage(slug)), s')
  }

  /** `POST /business/:slug/delete`: removes the business and every step,
      history row and scan event that points at it; every other business
      keeps all of its rows, in order. */
  function Delete(s: Store, slug: string): (h: Handled)
    ensures slug !in s.businesses ==> h == Handled(NotFound, s)
    ensures slug in s.businesses ==>
      var id := s.businesses[slug].id;
      && h.response == Found(HomePage)
      && h.store.businesses.Keys == s.businesses.Keys - {slug}
      && (forall k :: k in h.store.businesses ==> h.store.businesses[k] == s.businesses[k])
      && Owned(h.store.steps, id) == [] && Owned(h.store.history, id) == [] && Owned(h.store.scans, id) == []
      && (forall other :: other != id ==>
            && Owned(h.store.steps, other) == Owned(s.steps, other)
            && Owned(h.store.history, other) == Owned(s.history, other)
            && Owned(h.store.scans, other) == Owned(s.scans, other))
      && h.store.nextId == s.nextId
  {
    if slug !in s.businesses then Handled(NotFound, s)
    else
      var id := s.businesses[slug].id;
      var s' := Store(
        map k | k in s.businesses && k != slug :: s.businesses[k],
        Without(s.steps, id),
        Without(s.history, id),
        Without(s.scans, id),
        s.nextId);
      DeletedRows(s.steps, id);
      DeletedRows(s.history, id);
      DeletedRows(s.scans, id);
      Handled(Found(HomePage), s')
  }

  lemma DeletedRows<T>(rows: seq<Row<T>>, id: nat)
    ensures Owned(Without(rows, id), id) == []
    ensures forall other :: other != id ==> Owned(Without(rows, id), other) == Owned(rows, other)
  {
    OwnedNone(Without(rows, id), id);
    forall other | other != id
      ensures Owned(Without(rows, id), other) == Owned(rows, other)
    {
      OwnedWithout(rows, id, other);
    }
  }
}

=== FILE: platforms.dfy ===
/** The three supported platforms and the ways a request names one. */
module Platforms {
  import opened Fields
  import opened Text

  datatype Platform = Instagram | TikTok | YouTube

  /** All platforms, in the order reports list them. */
  const AllPlatforms: seq<Platform> := [Instagram, TikTok, YouTube]

  /** The lower-case key used in forms, routes and the `<key>Url` field
      names. */
  function Key(p: Platform): (k: string)
    ensures |k| >= 6
  {
    match p
    case Instagram => "instagram"
    case TikTok => "tiktok"
    case YouTube => "youtube"
  }

  /** The stored enum value, `key.toUpperCase()`. */
  function EnumName(p: Platform): (n: string)
    ensures n == ToUpper(Key(p))
  {
    match p
    case Instagram => "INSTAGRAM"
    case TikTok => "TIKTOK"
    case YouTube => "YOUTUBE"
  }

  /** `['instagram','tiktok','youtube'].includes(s)`: exact, case-sensitive
      match against the keys. */
  function Parse(s: string): (r: Option<Platform>)
    ensures forall p :: r == Some(p) <==> s == Key(p)
  {
    if s == "instagram" then Some(Instagram)
    else if s == "tiktok" then Some(TikTok)
    else if s == "youtube" then Some(YouTube)
    else None
  }

  /** The same check on a body field, which may be absent
      (`includes(undefined)` is false). */
  function ParseField(f: Option<string>): (r: Option<Platform>)
    ensures forall p :: r == Some(p) <==> f == Some(Key(p))
  {
    match f
    case None => None
    case Some(s) => Parse(s)
  }

  /** `(s || '').toLowerCase()` and then the exact check: case-insensitive
      on ASCII letters. */
  function ParseLowered(f: Option<string>): (r: Option<Platform>)
    ensures forall p :: r == Some(p) <==> ToLower(f.GetOr("")) == Key(p)
  {
    Parse(ToLower(f.GetOr("")))
  }

  /** Keys are already lower case. */
  lemma KeyIsLower(p: Platform)
    ensures ToLower(Key(p)) == Key(p)
  {
    ToLowerFixed(Key(p));
  }

  /** A platform's key parses back to it, exactly and case-insensitively. */
  lemma ParseKey(p: Platform)
    ensures Parse(Key(p)) == Some(p)
    ensures ParseField(Some(Key(p))) == Some(p)
    ensures ParseLowered(Some(Key(p))) == Some(p)
  {
    KeyIsLower(p);
  }

  /** The exact check rejects a capitalised key that the lower-casing check
      accepts. */
  lemma CaseMatters()
    ensures ParseField(Some("Instagram")) == None
    ensures ParseLowered(Some("Instagram")) == Some(Instagram)
  {
    var l := ToLower("Instagram");
    assert l[0] == 'i';
    assert l[1..] == "nstagram";
    assert l == "instagram";
  }
}

=== FILE: registry.dfy ===
/** The link registry handlers: change one destination (`/update`), switch a
    platform on or off (`/toggle`) and save the theme with its steps
    (`/theme`). Each checks the slug first, then the platform. */
module Registry {
  import opened Fields
  import opened Text
  import opened Platforms
  import opened Steps
  import opened Rows
  import opened Http
  import opened Store

  /** `POST /business/:slug/update`: the platform is lower-cased before it
      is checked; the field becomes `newUrl || null` and one history row
      records the previous value and `newUrl || ''`. */
  function Update(s: Store, slug: string, platform: Option<string>, newUrl: Option<string>): (h: Handled)
    ensures slug !in s.businesses ==> h == Handled(NotFound, s)
    ensures slug in s.businesses && ParseLowered(platform).None? ==> h == Handled(InvalidPlatform, s)
    ensures slug in s.businesses && ParseLowered(platform).Some? ==>
      var b := s.businesses[slug];
      var p := ParseLowered(platform).value;
      && h.response == Found(AdminPage(slug))
      && h.store.businesses.Keys == s.businesses.Keys
      && (forall k :: k in s.businesses && k != slug ==> h.store.businesses[k] == s.businesses[k])
      && h.store.businesses[slug].id == b.id
      && h.store.businesses[slug].name == b.name
      && h.store.businesses[slug].theme == b.theme
      && Url(h.store.businesses[slug], p) == OrNull(newUrl)
      && Url(h.store.businesses[slug], p) != Some("")
      && (forall q :: q != p ==> Url(h.store.businesses[slug], q) == Url(b, q))
      && h.store.history == s.history + [Row(b.id, Change(p, Url(b, p), OrEmpty(newUrl)))]
      && h.store.steps == s.steps && h.store.scans == s.scans && h.store.nextId == s.nextId
  {
    if slug !in s.businesses then Handled(NotFound, s)
    else
      match ParseLowered(platform)
      case None => Handled(InvalidPlatform, s)
      case Some(p) =>
        var b := s.businesses[slug];
        var change := Row(b.id, Change(p, Url(b, p), OrEmpty(newUrl)));
        var s' := s.(businesses := s.businesses[slug := WithUrl(b, p, OrNull(newUrl))],
                     history := s.history + [change]);
        Handled(Found(AdminPage(slug)), s')
  }

  /** The URL enabling switches to: the trimmed new URL when it is not
      blank, otherwise the platform's current value. */
  function EnableTarget(newUrl: Option<string>, current: Option<string>): (t: Option<string>)
    ensures newUrl.Some? && Trim(newUrl.value) != "" ==> t == Some(Trim(newUrl.value))
    ensures !(newUrl.Some? && Trim(newUrl.value) != "") ==> t == current
  {
    if newUrl.Some? && Trim(newUrl.value) != "" then Some(Trim(newUrl.value)) else current
  }

  /** `POST /business/:slug/toggle`: the platform must match a key exactly.
      Disabling clears the field and logs `toUrl = ""`; enabling sets the
      field to the enable target and logs it, or answers 400 and writes
      nothing when there is no usable URL. */
  function Toggle(s: Store, slug: string, platform: Option<string>, enabled: Option<string>,
                  newUrl: Option<string>): (h: Handled)
    ensures slug !in s.businesses ==> h == Handled(NotFound, s)
    ensures slug in s.businesses && ParseField(platform).None? ==> h == Handled(InvalidPlatform, s)
    ensures slug in s.businesses && ParseField(platform).Some? ==>
      var b := s.businesses[slug];
      var p := ParseField(platform).value;
      var target := EnableTarget(newUrl, Url(b, p));
      if enabled == Some("on") && !Truthy(target) then
        h == Handled(UrlRequired, s)
      else
        var toUrl := if enabled == Some("on") then target.value else "";
        && h.response == Found(AdminPage(slug))
        && h.store.businesses.Keys == s.businesses.Keys
        && (forall k :: k in s.businesses && k != slug ==> h.store.businesses[k] == s.businesses[k])
        && h.store.businesses[slug].id == b.id
        && h.store.businesses[slug].name == b.name
        && h.store.businesses[slug].theme == b.theme
        && Reflects(toUrl, Url(h.store.businesses[slug], p))
        && (enabled == Some("on") <==> Url(h.store.businesses[slug], p).Some?)
        && (forall q :: q != p ==> Url(h.store.businesses[slug], q) == Url(b, q))
        && h.store.history == s.history + [Row(b.id, Change(p, Url(b, p), toUrl))]
        && h.store.steps == s.steps && h.store.scans == s.scans && h.store.nextId == s.nextId
  {
    if slug !in s.businesses then Handled(NotFound, s)
    else
      match ParseField(platform)
      case None => Handled(InvalidPlatform, s)
      case Some(p) =>
        var b := s.businesses[slug];
        if enabled != Some("on") then
          var s' := s.(businesses := s.businesses[slug := WithUrl(b, p, None)],
                       history := s.history + [Row(b.id, Change(p, Url(b, p), ""))]);
          Handled(Found(AdminPage(slug)), s')
        else
          var target := EnableTarget(newUrl, Url(b, p));
          if !Truthy(target) then Handled(UrlRequired, s)
          else
            var s' := s.(businesses := s.businesses[slug := WithUrl(b, p, target)],
                         history := s.history + [Row(b.id, Change(p, Url(b, p), target.value))]);
            Handled(Found(AdminPage(slug)), s')
  }

  /** The fields of the theme form. */
  datatype ThemeForm = ThemeForm(
    brandColor: Option<string>,
    publicTitle: Option<string>,
    publicSubtitle: Option<string>,
    publicFooter: Option<string>,
    ctaLabel: Option<string>,
    ctaText: Option<string>,
    showLogo: Option<string>,
    qrLayout: Option<string>,
    steps: Option<string>,
    logoUrl: Option<string>,
    instagramUrl: Option<string>,
    tiktokUrl: Option<string>,
    youtubeUrl: Option<string>)

  /** The destination a form submits for one platform. */
  function FormUrl(f: ThemeForm, p: Platform): Option<string> {
    match p
    case Instagram => f.instagramUrl
    case TikTok => f.tiktokUrl
    case YouTube => f.youtubeUrl
  }

  /** The poster layout a form asks for: horizontal only for the exact
      value `horizontal`, vertical for anything else or nothing. */
  function LayoutOf(f: Option<string>): (l: Layout)
    ensures l == Horizontal <==> f == Some("horizontal")
  {
    if f == Some("horizontal") then Horizontal else Vertical
  }

  /** `POST /business/:slug/theme`: every text and destination field
      becomes its value or null, `showLogo` the truthiness of the field and
      the layout horizontal only for `"horizontal"` (no history row is
      written for the destinations), and the business's steps are replaced
      by the parsed textarea. */
  function SaveTheme(s: Store, slug: string, f: ThemeForm): (h: Handled)
    ensures slug !in s.businesses ==> h == Handled(NotFound, s)
    ensures slug in s.businesses ==>
      var b := s.businesses[slug];
      && h.response == Found(AdminPage(slug))
      && h.store.businesses.Keys == s.businesses.Keys
      && (forall k :: k in s.businesses && k != slug ==> h.store.businesses[k] == s.businesses[k])
      && h.store.businesses[slug].id == b.id
      && h.store.businesses[slug].name == b.name
      && h.store.businesses[slug].theme == Theme(
           OrNull(f.logoUrl), OrNull(f.brandColor), OrNull(f.publicTitle), OrNull(f.publicSubtitle),
           OrNull(f.publicFooter), OrNull(f.ctaLabel), OrNull(f.ctaText),
           Truthy(f.showLogo), LayoutOf(f.qrLayout))
      && (forall p :: Url(h.store.businesses[slug], p) == OrNull(FormUrl(f, p)))
      && Owned(h.store.steps, b.id) == StepRows(b.id, ParseSteps(f.steps))
      && (forall id :: id != b.id ==> Owned(h.store.steps, id) == Owned(s.steps, id))
      && h.store.history == s.history && h.store.scans == s.scans && h.store.nextId == s.nextId
  {
    if slug !in s.businesses then Handled(NotFound, s)
    else
      var b := s.businesses[slug];
      var theme := Theme(
        OrNull(f.logoUrl), OrNull(f.brandColor), OrNull(f.publicTitle), OrNull(f.publicSubtitle),
        OrNull(f.publicFooter), OrNull(f.ctaLabel), OrNull(f.ctaText),
        Truthy(f.showLogo), LayoutOf(f.qrLayout));
      var links := Links(OrNull(f.instagramUrl), OrNull(f.tiktokUrl), OrNull(f.youtubeUrl));
      var added := StepRows(b.id, ParseSteps(f.steps));
      var steps := Without(s.steps, b.id) + added;
      ReplacedSteps(s.steps, b.id, added);
      var s' := s.(businesses := s.businesses[slug := b.(theme := theme, links := links)],
                   steps := steps);
      Handled(Found(AdminPage(slug)), s')
  }

  lemma ReplacedSteps(rows: seq<Row<Step>>, id: nat, added: seq<Row<Step>>)
    requires forall i :: 0 <= i < |added| ==> added[i].businessId == id
    ensures Owned(Without(rows, id) + added, id) == added
    ensures forall other :: other != id ==> Owned(Without(rows, id) + added, other) == Owned(rows, other)
  {
    ReplaceOwned(rows, id, added, id);
    forall other | other != id
      ensures Owned(Without(rows, id) + added, other) == Owned(rows, other)
    {
      ReplaceOwned(rows, id, added, other);
    }
  }

  /** Appending a history row makes it the latest for its business and
      platform and leaves the latest row of every other pair as it was. */
  lemma LastChangeAppend(history: seq<Row<Change>>, row: Row<Change>, id: nat, q: Platform)
    ensures LastChange(history + [row], id, q)
         == if row.businessId == id && row.value.platform == q then Some(row.value)
            else LastChange(history, id, q)
  {
    assert (history + [row])[..|history|] == history;
  }

  /** A successful update leaves the latest history row of the platform in
      agreement with the field it wrote, and keeps an audit trail that
      agreed with every other platform in agreement. */
  lemma UpdateAudited(s: Store, slug: string, platform: Option<string>, newUrl: Option<string>)
    requires slug in s.businesses && ParseLowered(platform).Some?
    ensures var s' := Update(s, slug, platform, newUrl).store;
      var p := ParseLowered(platform).value;
      Reflects(LastChange(s'.history, s'.businesses[slug].id, p).value.toUrl, Url(s'.businesses[slug], p))
    ensures Audited(s, slug) ==> Audited(Update(s, slug, platform, newUrl).store, slug)
  {
    var s' := Update(s, slug, platform, newUrl).store;
    var b := s.businesses[slug];
    var row := s'.history[|s'.history| - 1];
    forall q
      ensures LastChange(s'.history, b.id, q)
           == if row.value.platform == q then Some(row.value) else LastChange(s.history, b.id, q)
    {
      LastChangeAppend(s.history, row, b.id, q);
    }
  }

  /** The same for a successful toggle. */
  lemma ToggleAudited(s: Store, slug: string, platform: Option<string>, enabled: Option<string>,
                      newUrl: Option<string>)
    requires slug in s.businesses && ParseField(platform).Some?
    requires Toggle(s, slug, platform, enabled, newUrl).response != UrlRequired
    ensures var s' := Toggle(s, slug, platform, enabled, newUrl).store;
      var p := ParseField(platform).value;
      Reflects(LastChange(s'.history, s'.businesses[slug].id, p).value.toUrl, Url(s'.businesses[slug], p))
    ensures Audited(s, slug) ==> Audited(Toggle(s, slug, platform, enabled, newUrl).store, slug)
  {
    var s' := Toggle(s, slug, platform, enabled, newUrl).store;
    var b := s.businesses[slug];
    var row := s'.history[|s'.history| - 1];
    forall q
      ensures LastChange(s'.history, b.id, q)
           == if row.value.platform == q then Some(row.value) else LastChange(s.history, b.id, q)
    {
      LastChangeAppend(s.history, row, b.id, q);
    }
  }

  /** A theme save writes destinations without history rows: when it
      changes a destination that has an audited history, the latest
      `toUrl` no longer agrees with the field. */
  lemma ThemeBypassesAudit(s: Store, slug: string, f: ThemeForm, p: Platform)
    requires slug in s.businesses && Audited(s, slug)
    requires LastChange(s.history, s.businesses[slug].id, p).Some?
    requires OrNull(FormUrl(f, p)) != Url(s.businesses[slug], p)
    ensures !Audited(SaveTheme(s, slug, f).store, slug)
  {
    var s' := SaveTheme(s, slug, f).store;
    var id := s.businesses[slug].id;
    assert Reflects(LastChange(s.history, id, p).value.toUrl, Url(s.businesses[slug], p));
    assert Url(s'.businesses[slug], p) == OrNull(FormUrl(f, p));
  }

  /** Switching a platform off is the same write as updating it to no URL:
      the field becomes null and one history row records `""`. */
  lemma DisableIsClear(s: Store, slug: string, p: Platform, enabled: Option<string>, newUrl: Option<string>)
    requires enabled != Some("on")
    ensures Toggle(s, slug, Some(Key(p)), enabled, newUrl) == Update(s, slug, Some(Key(p)), None)
  {
    ParseKey(p);
    KeyIsLower(p);
  }

  /** Update lower-cases the platform but toggle does not: `"Instagram"`
      updates the Instagram link, yet toggling it is an invalid platform. */
  lemma ToggleIsCaseSensitive(s: Store, slug: string, enabled: Option<string>, newUrl: Option<string>)
    requires slug in s.businesses
    ensures Toggle(s, slug, Some("Instagram"), enabled, newUrl) == Handled(InvalidPlatform, s)
    ensures Update(s, slug, Some("Instagram"), newUrl).response == Found(AdminPage(slug))
  {
    CaseMatters();
  }

  /** Switching a platform off forgets its URL: switching it back on without
      a new URL always answers 400, since the fallback to the current value
      finds the field already null. */
  lemma ReenableNeedsUrl(s: Store, slug: string, p: Platform, off: Option<string>, url: Option<string>,
                         newUrl: Option<string>)
    requires slug in s.businesses && off != Some("on")
    requires !(newUrl.Some? && Trim(newUrl.value) != "")
    ensures var s1 := Toggle(s, slug, Some(Key(p)), off, url).store;
      Toggle(s1, slug, Some(Key(p)), Some("on"), newUrl) == Handled(UrlRequired, s1)
  {
    ParseKey(p);
  }
}

=== FILE: rows.dfy ===
/** Every table except the business table holds rows that belong to one
    business through its id. */
module Rows {

  datatype Row<T> = Row(businessId: nat, value: T)

  /** The rows of business `id`, in table order. */
  function Owned<T>(rows: seq<Row<T>>, id: nat): (r: seq<Row<T>>)
    ensures |r| <= |rows|
    ensures forall i :: 0 <= i < |r| ==> r[i].businessId == id
  {
    if rows == [] then []
    else if rows[0].businessId == id then [rows[0]] + Owned(rows[1..], id)
    else Owned(rows[1..], id)
  }

  /** `deleteMany({ where: { businessId: id } })`: the rows that remain, in
      table order. */
  function Without<T>(rows: seq<Row<T>>, id: nat): (r: seq<Row<T>>)
    ensures |r| <= |rows|
    ensures forall i :: 0 <= i < |r| ==> r[i].businessId != id
  {
    if rows == [] then []
    else if rows[0].businessId != id then [rows[0]] + Without(rows[1..], id)
    else Without(rows[1..], id)
  }

  /** Every row belongs to one of `ids`. */
  predicate OwnersIn<T>(rows: seq<Row<T>>, ids: set<nat>) {
    forall i :: 0 <= i < |rows| ==> rows[i].businessId in ids
  }

  lemma {:induction false} OwnedAppend<T>(a: seq<Row<T>>, b: seq<Row<T>>, id: nat)
    ensures Owned(a + b, id) == Owned(a, id) + Owned(b, id)
  {
    if a == [] {
      assert a + b == b;
    } else {
      var c := a + b;
      assert c != [] && c[0] == a[0];
      assert c[1..] == a[1..] + b;
      OwnedAppend(a[1..], b, id);
      var head := if a[0].businessId == id then [a[0]] else [];
      assert Owned(c, id) == head + Owned(a[1..] + b, id);
      assert Owned(a, id) == head + Owned(a[1..], id);
      assert head + (Owned(a[1..], id) + Owned(b, id)) == (head + Owned(a[1..], id)) + Owned(b, id);
    }
  }

  /** No row of `id` means nothing is owned by `id`. */
  lemma {:induction false} OwnedNone<T>(rows: seq<Row<T>>, id: nat)
    requires forall i :: 0 <= i < |rows| ==> rows[i].businessId != id
    ensures Owned(rows, id) == []
  {
    if rows != [] {
      OwnedNone(rows[1..], id);
    }
  }

  /** Rows that all belong to `id` are all owned by `id`. */
  lemma {:induction false} OwnedAll<T>(rows: seq<Row<T>>, id: nat)
    requires forall i :: 0 <= i < |rows| ==> rows[i].businessId == id
    ensures Owned(rows, id) == rows
  {
    if rows != [] {
      OwnedAll(rows[1..], id);
    }
  }

  /** Deleting the rows of `id` leaves every other business's rows as they
      were, in the same order. */
  lemma {:induction false} OwnedWithout<T>(rows: seq<Row<T>>, id: nat, other: nat)
    requires other != id
    ensures Owned(Without(rows, id), other) == Owned(rows, other)
  {
    if rows != [] {
      OwnedWithout(rows[1..], id, other);
    }
  }

  /** Deleting and re-adding rows of `id` keeps the rows of every other
      business and leaves exactly the new rows for `id`. */
  lemma ReplaceOwned<T>(rows: seq<Row<T>>, id: nat, added: seq<Row<T>>, other: nat)
    requires forall i :: 0 <= i < |added| ==> added[i].businessId == id
    ensures Owned(Without(rows, id) + added, id) == added
    ensures other != id ==> Owned(Without(rows, id) + added, other) == Owned(rows, other)
  {
    OwnedAppend(Without(rows, id), added, id);
    OwnedNone(Without(rows, id), id);
    OwnedAll(added, id);
    if other != id {
      OwnedAppend(Without(rows, id), added, other);
      OwnedWithout(rows, id, other);
      OwnedNone(added, other);
    }
  }

  /** Deleting the rows of `id` leaves rows that belong to the other ids. */
  lemma {:induction false} OwnersWithout<T>(rows: seq<Row<T>>, ids: set<nat>, id: nat)
    requires OwnersIn(rows, ids)
    ensures OwnersIn(Without(rows, id), ids - {id})
  {
    if rows != [] {
      OwnersWithout(rows[1..], ids, id);
    }
  }

  /** Appending rows of a new id to rows of known ids gives rows whose
      owners are the known ids and the new one. */
  lemma AddedOwners<T>(rows: seq<Row<T>>, ids: set<nat>, id: nat, added: seq<Row<T>>)
    requires OwnersIn(rows, ids)
    requires forall i :: 0 <= i < |added| ==> added[i].businessId == id
    ensures OwnersIn(rows + added, ids + {id})
  {
    forall i | 0 <= i < |rows + added| ensures (rows + added)[i].businessId in ids + {id} {
      if i >= |rows| {
        assert (rows + added)[i] == added[i - |rows|];
      }
    }
  }

  /** An id that owns none of the rows owns nothing. */
  lemma OwnedOutside<T>(rows: seq<Row<T>>, ids: set<nat>, id: nat)
    requires OwnersIn(rows, ids) && id !in ids
    ensures Owned(rows, id) == []
  {
    OwnedNone(rows, id);
  }

  /** Deleting the rows of an id no row belongs to changes nothing. */
  lemma {:induction false} WithoutOutside<T>(rows: seq<Row<T>>, ids: set<nat>, id: nat)
    requires OwnersIn(rows, ids) && id !in ids
    ensures Without(rows, id) == rows
  {
    if rows != [] {
      WithoutOutside(rows[1..], ids, id);
      assert rows == [rows[0]] + rows[1..];
    }
  }

  /** Deleting the rows of `id` from rows that all belong to `id` leaves
      nothing. */
  lemma {:induction false} WithoutAll<T>(rows: seq<Row<T>>, id: nat)
    requires forall i :: 0 <= i < |rows| ==> rows[i].businessId == id
    ensures Without(rows, id) == []
  {
    if rows != [] {
      WithoutAll(rows[1..], id);
    }
  }

  /** Deleting from a concatenation deletes from each part. */
  lemma {:induction false} WithoutAppend<T>(a: seq<Row<T>>, b: seq<Row<T>>, id: nat)
    ensures Without(a + b, id) == Without(a, id) + Without(b, id)
  {
    if a == [] {
      assert a + b == b;
    } else {
      var c := a + b;
      assert c[0] == a[0] && c[1..] == a[1..] + b;
      WithoutAppend(a[1..], b, id);
      var head := if a[0].businessId != id then [a[0]] else [];
      assert Without(c, id) == head + Without(a[1..] + b, id);
      assert Without(a, id) == head + Without(a[1..], id);
      assert head + (Without(a[1..], id) + Without(b, id)) == (head + Without(a[1..], id)) + Without(b, id);
    }
  }
}

=== FILE: slugs.dfy ===
/** Slug derivation for a new business (`server.js:44-46`). Case mapping is
    modelled on ASCII letters only; every other character counts as a
    character outside `[a-z0-9]`. */
module Slugs {
  import opened Fields
  import opened Text

  /** Characters the class `[a-z0-9]` accepts. */
  predicate IsSlugChar(c: char) {
    'a' <= c <= 'z' || '0' <= c <= '9'
  }

  /** Only `a-z`, `0-9` and single hyphens: what collapsing produces. */
  predicate Hyphenated(t: string) {
    && (forall i :: 0 <= i < |t| ==> IsSlugChar(t[i]) || t[i] == '-')
    && (forall i :: 0 <= i < |t| - 1 ==> t[i] == '-' ==> t[i + 1] != '-')
  }

  /** A hyphenated string with no hyphen at either end. The conjuncts of
      `Hyphenated` are written out so that the solver does not unfold two
      layers wherever a slug appears; `CanonicalIsHyphenated` ties the two
      definitions together. */
  predicate IsCanonical(t: string) {
    && (forall i :: 0 <= i < |t| ==> IsSlugChar(t[i]) || t[i] == '-')
    && (forall i :: 0 <= i < |t| - 1 ==> t[i] == '-' ==> t[i + 1] != '-')
    && (t != [] ==> t[0] != '-' && t[|t| - 1] != '-')
  }

  /** The `[a-z0-9]` characters of `s`, in order. */
  function Alnums(s: string): (r: string)
    ensures forall i :: 0 <= i < |r| ==> IsSlugChar(r[i])
  {
    if s == [] then []
    else if IsSlugChar(s[0]) then [s[0]] + Alnums(s[1..])
    else Alnums(s[1..])
  }

  /** Drops the run of characters outside `[a-z0-9]` at the front of `s`. */
  function SkipRun(s: string): (r: string)
    ensures |r| <= |s| && r == s[|s| - |r|..]
    ensures r == [] || IsSlugChar(r[0])
    ensures s != [] && !IsSlugChar(s[0]) ==> |r| < |s|
    ensures Alnums(r) == Alnums(s)
  {
    if s == [] || IsSlugChar(s[0]) then s else SkipRun(s[1..])
  }

  /** `s.replace(/[^a-z0-9]+/g, '-')`: each maximal run of characters
      outside `[a-z0-9]` becomes a single hyphen. */
  function CollapseRuns(s: string): (r: string)
    ensures r == [] <==> s == []
    ensures s != [] ==> r[0] == (if IsSlugChar(s[0]) then s[0] else '-')
    ensures forall i :: 0 <= i < |r| ==> IsSlugChar(r[i]) || r[i] == '-'
    ensures forall i :: 0 <= i < |r| - 1 ==> r[i] == '-' ==> r[i + 1] != '-'
    decreases |s|
  {
    if s == [] then []
    else if IsSlugChar(s[0]) then [s[0]] + CollapseRuns(s[1..])
    else "-" + CollapseRuns(SkipRun(s))
  }

  /** Where `StripEdgeHyphens` starts: past a leading hyphen, if any. */
  function StripFront(t: string): nat {
    if t != [] && t[0] == '-' then 1 else 0
  }

  /** The second replace of the name branch: removes a hyphen at the very
      front and a hyphen at the very end, and nothing else. The anchors
      match only at the ends of the whole string, so no inner hyphen and
      no second hyphen at an end is ever removed. The result is the slice
      of `t` after the front hyphen, shortened by one exactly when what
      is left ends in a hyphen. On the output of collapsing it leaves no
      hyphen at either end. */
  function StripEdgeHyphens(t: string): (r: string)
    ensures StripFront(t) + |r| <= |t|
    ensures r == t[StripFront(t)..StripFront(t) + |r|]
    ensures StripFront(t) + |r| < |t| <==> |t| > StripFront(t) && t[|t| - 1] == '-'
    ensures |t| <= StripFront(t) + |r| + 1
    ensures Hyphenated(t) ==> IsCanonical(r)
  {
    var a := if t != [] && t[0] == '-' then t[1..] else t;
    DropFrontHyphen(t);
    DropBackHyphen(a);
    if a != [] && a[|a| - 1] == '-' then a[..|a| - 1] else a
  }

  /** The slug derived from a business name: lower-cased, runs outside
      `[a-z0-9]` collapsed to a hyphen, edge hyphens removed. It is
      canonical and keeps exactly the letters and digits of the
      lower-cased name, in order; `CollapseSlugChars` and `CollapseRun`
      say where the hyphens go. */
  function NameSlug(name: string): (slug: string)
    ensures IsCanonical(slug)
    ensures Alnums(slug) == Alnums(ToLower(name))
  {
    var t := CollapseRuns(ToLower(name));
    CollapseKeepsAlnums(ToLower(name));
    StripKeepsAlnums(t);
    StripEdgeHyphens(t)
  }

  /** A custom slug is used when it is present and not blank. */
  predicate HasCustom(custom: Option<string>) {
    custom.Some? && Trim(custom.value) != ""
  }

  /** The slug a new business is stored under: a non-blank custom slug,
      trimmed and lower-cased, wins; otherwise the name-derived slug. */
  function DeriveSlug(name: string, custom: Option<string>): (slug: string)
    ensures HasCustom(custom) ==> slug == ToLower(Trim(custom.value))
    ensures HasCustom(custom) ==> slug != "" && Trim(slug) == slug
    ensures HasCustom(custom) ==> forall i :: 0 <= i < |slug| ==> !IsUpper(slug[i])
    ensures !HasCustom(custom) ==> IsCanonical(slug) && slug == NameSlug(name)
  {
    if HasCustom(custom) then
      var slug := ToLower(Trim(custom.value));
      LowerKeepsTrimmed(Trim(custom.value));
      slug
    else
      NameSlug(name)
  }

  /** Lower-casing never turns whitespace into non-whitespace or back, so a
      trimmed string stays trimmed. */
  lemma LowerKeepsTrimmed(t: string)
    requires t != "" && Trim(t) == t
    ensures Trim(ToLower(t)) == ToLower(t)
  {
    var l := ToLower(t);
    TrimmedEnds(t);
    LowerCharSpace(t[0]);
    LowerCharSpace(t[|t| - 1]);
    assert l[0] == LowerChar(t[0]) && l[|l| - 1] == LowerChar(t[|t| - 1]);
    TrimOfTrimmed(l);
  }

  /** Collapsing runs keeps every `[a-z0-9]` character, in order. */
  lemma {:induction false} CollapseKeepsAlnums(s: string)
    ensures Alnums(CollapseRuns(s)) == Alnums(s)
    decreases |s|
  {
    if s != [] {
      if IsSlugChar(s[0]) {
        CollapseKeepsAlnums(s[1..]);
        assert ([s[0]] + CollapseRuns(s[1..]))[1..] == CollapseRuns(s[1..]);
      } else {
        CollapseKeepsAlnums(SkipRun(s));
        assert ("-" + CollapseRuns(SkipRun(s)))[1..] == CollapseRuns(SkipRun(s));
      }
    }
  }

  /** The `[a-z0-9]` characters of a concatenation. */
  lemma {:induction false} AlnumsAppend(a: string, b: string)
    ensures Alnums(a + b) == Alnums(a) + Alnums(b)
  {
    if a == [] {
      assert a + b == b;
    } else {
      AlnumsAppend(a[1..], b);
      assert (a + b)[1..] == a[1..] + b;
    }
  }

  /** Stripping edge hyphens loses no `[a-z0-9]` character. */
  lemma StripKeepsAlnums(t: string)
    ensures Alnums(StripEdgeHyphens(t)) == Alnums(t)
  {
    var a := if t != [] && t[0] == '-' then t[1..] else t;
    if t != [] && t[0] == '-' {
      assert t == [t[0]] + a;
      AlnumsAppend([t[0]], a);
    }
    if a != [] && a[|a| - 1] == '-' {
      assert a == a[..|a| - 1] + [a[|a| - 1]];
      AlnumsAppend(a[..|a| - 1], [a[|a| - 1]]);
    }
  }


  /** Canonical is hyphenated with no hyphen at either end. */
  lemma CanonicalIsHyphenated(t: string)
    ensures IsCanonical(t) <==> Hyphenated(t) && (t != [] ==> t[0] != '-' && t[|t| - 1] != '-')
  {
  }

  /** Dropping a leading hyphen leaves a string that starts with a letter
      or digit. */
  lemma DropFrontHyphen(t: string)
    ensures var a := if t != [] && t[0] == '-' then t[1..] else t;
      Hyphenated(t) ==> Hyphenated(a) && (a != [] ==> a[0] != '-')
  {
    if Hyphenated(t) && t != [] && t[0] == '-' {
      var a := t[1..];
      assert forall i :: 0 <= i < |a| ==> a[i] == t[i + 1];
      assert a != [] ==> a[0] == t[1];
    }
  }

  /** Dropping a trailing hyphen of a string that does not start with one
      leaves a canonical string. */
  lemma DropBackHyphen(a: string)
    ensures Hyphenated(a) && (a != [] ==> a[0] != '-') ==>
      IsCanonical(if a != [] && a[|a| - 1] == '-' then a[..|a| - 1] else a)
  {
    if Hyphenated(a) && a != [] && a[0] != '-' && a[|a| - 1] == '-' {
      var r := a[..|a| - 1];
      assert forall i :: 0 <= i < |r| ==> r[i] == a[i];
      assert r != [] ==> r[|r| - 1] == a[|a| - 2];
    }
  }

  /** A name yields the empty slug exactly when it has no ASCII letter or
      digit. */
  lemma NameSlugEmpty(name: string)
    ensures NameSlug(name) == "" <==> Alnums(ToLower(name)) == ""
  {
    var slug := NameSlug(name);
    if slug != "" {
      assert IsSlugChar(slug[0]);
      assert slug == [slug[0]] + slug[1..];
    }
  }

  /** Letters and digits pass through collapsing unchanged. */
  lemma {:induction false} CollapseSlugChars(x: string, s: string)
    requires forall i :: 0 <= i < |x| ==> IsSlugChar(x[i])
    ensures CollapseRuns(x + s) == x + CollapseRuns(s)
  {
    if x == [] {
      assert x + s == s;
    } else {
      var rest := x[1..];
      CollapseSlugChars(rest, s);
      ConsOfAppend(x, s);
      CollapseCons(x[0], rest + s);
      ConsAppend(x[0], rest, CollapseRuns(s), x);
    }
  }

  /** Collapsing a string with a known first character. */
  lemma CollapseCons(c: char, t: string)
    ensures CollapseRuns([c] + t)
         == if IsSlugChar(c) then [c] + CollapseRuns(t) else "-" + CollapseRuns(SkipRun([c] + t))
  {
    assert ([c] + t)[0] == c && ([c] + t)[1..] == t;
  }

  /** A character in front of a concatenation sticks to its first part. */
  lemma ConsAppend(c: char, a: string, b: string, x: string)
    requires x == [c] + a
    ensures [c] + (a + b) == x + b
  {
  }

  /** A whole run of characters outside `[a-z0-9]` (one that is followed by
      the end or by a letter or digit) becomes exactly one hyphen. */
  lemma CollapseRun(y: string, s: string)
    requires y != [] && forall i :: 0 <= i < |y| ==> !IsSlugChar(y[i])
    requires s == [] || IsSlugChar(s[0])
    ensures CollapseRuns(y + s) == "-" + CollapseRuns(s)
  {
    SkipRunOver(y, s);
    ConsOfAppend(y, s);
    CollapseCons(y[0], y[1..] + s);
  }

  /** Skipping a run stops at the first letter or digit. */
  lemma {:induction false} SkipRunOver(y: string, s: string)
    requires forall i :: 0 <= i < |y| ==> !IsSlugChar(y[i])
    requires s == [] || IsSlugChar(s[0])
    ensures SkipRun(y + s) == s
  {
    if y == [] {
      assert y + s == s;
    } else {
      SkipRunOver(y[1..], s);
      ConsOfAppend(y, s);
      SkipCons(y[0], y[1..] + s);
    }
  }

  /** Skipping from a string with a known first character. */
  lemma SkipCons(c: char, t: string)
    ensures SkipRun([c] + t) == if IsSlugChar(c) then [c] + t else SkipRun(t)
  {
    assert ([c] + t)[0] == c && ([c] + t)[1..] == t;
  }

  /** The space in `"a b"` becomes a hyphen rather than disappearing. */
  lemma SpaceBecomesHyphen()
    ensures NameSlug("a b") == "a-b"
  {
    LowerAB();
    CollapseAB();
    StripAB();
  }

  /** `"a b"` has no upper-case letter, so lower-casing keeps it. */
  lemma LowerAB()
    ensures ToLower("a b") == "a b"
  {
    ToLowerFixed("a b");
  }

  /** The space of `"a b"` collapses to one hyphen. */
  lemma CollapseAB()
    ensures CollapseRuns("a b") == "a-b"
  {
    var a: string, y: string, b: string := "a", " ", "b";
    assert a + y + b == "a b";
    assert a + "-" + b == "a-b";
    WordsAroundRun(a, y, b);
  }

  /** Two words separated by a run outside `[a-z0-9]` collapse to the
      words joined by one hyphen. */
  lemma WordsAroundRun(a: string, y: string, b: string)
    requires forall i :: 0 <= i < |a| ==> IsSlugChar(a[i])
    requires y != [] && forall i :: 0 <= i < |y| ==> !IsSlugChar(y[i])
    requires b != [] && forall i :: 0 <= i < |b| ==> IsSlugChar(b[i])
    ensures CollapseRuns(a + y + b) == a + "-" + b
  {
    CollapseSlugChars(b, "");
    assert b + "" == b;
    CollapseRun(y, b);
    assert a + y + b == a + (y + b);
    CollapseSlugChars(a, y + b);
    assert a + ("-" + b) == a + "-" + b;
  }

  /** `"a-b"` has no hyphen at either end, so stripping keeps it. */
  lemma StripAB()
    ensures StripEdgeHyphens("a-b") == "a-b"
  {
    var t: string := "a-b";
    assert t[0] == 'a' && t[2] == 'b';
    assert StripFront(t) == 0;
    assert t[0..3] == t;
  }

  /** Collapsing leaves a string of `[a-z0-9]` and single hyphens as it is. */
  lemma {:induction false} CollapseFixed(t: string)
    requires forall i :: 0 <= i < |t| ==> IsSlugChar(t[i]) || t[i] == '-'
    requires forall i :: 0 <= i < |t| - 1 ==> t[i] == '-' ==> t[i + 1] != '-'
    ensures CollapseRuns(t) == t
    decreases |t|
  {
    if t != [] {
      var rest := t[1..];
      assert t == [t[0]] + rest;
      CollapseFixed(rest);
      CollapseCons(t[0], rest);
      if !IsSlugChar(t[0]) {
        SkipCons(t[0], rest);
        assert rest == [] || IsSlugChar(rest[0]);
        assert SkipRun(rest) == rest;
      }
    }
  }

  /** Stripping leaves a string with no hyphen at either end as it is. */
  lemma StripFixed(t: string)
    requires t != [] ==> t[0] != '-' && t[|t| - 1] != '-'
    ensures StripEdgeHyphens(t) == t
  {
    assert StripFront(t) == 0;
  }

  /** A canonical slug derives to itself. */
  lemma CanonicalFixed(t: string)
    requires IsCanonical(t)
    ensures NameSlug(t) == t
  {
    forall i | 0 <= i < |t| ensures !IsUpper(t[i]) {
      assert IsSlugChar(t[i]) || t[i] == '-';
    }
    ToLowerFixed(t);
    CollapseFixed(t);
    StripFixed(t);
  }

  /** Deriving a slug from a derived slug changes nothing. */
  lemma NameSlugIdempotent(name: string)
    ensures NameSlug(NameSlug(name)) == NameSlug(name)
  {
    CanonicalFixed(NameSlug(name));
  }

  /** A whitespace-only custom slug is ignored, exactly as an absent one. */
  lemma BlankCustomFallsBack(name: string, custom: string)
    requires AllSpace(custom)
    ensures DeriveSlug(name, Some(custom)) == DeriveSlug(name, None)
  {
  }

  /** A custom slug keeps every `/` of the submitted value: it is only
      trimmed and lower-cased, so such a business gets a QR code whose
      address does not fit the redirect route (`StableUrlSegments`). */
  lemma CustomSlugKeepsSlash(name: string, custom: Option<string>)
    requires HasCustom(custom)
    ensures '/' in DeriveSlug(name, custom) <==> '/' in Trim(custom.value)
  {
    LowerKeepsSlash(Trim(custom.value));
  }

  /** The custom slug `a/b` is stored as it is. */
  lemma SlashedCustomSlug()
    ensures DeriveSlug("x", Some("a/b")) == "a/b"
  {
    TrimOfTrimmed("a/b");
    ToLowerFixed("a/b");
  }
}

=== FILE: steps.dfy ===
/** Instruction steps entered as a textarea, one per line
    (`server.js:60-66` and `server.js:140-145`). */
module Steps {
  import opened Fields
  import opened Text

  /** One stored step: its 1-based position and its text. */
  datatype Step = Step(order: nat, text: string)

  /** Every line with its surrounding white space removed. */
  function TrimAll(lines: seq<string>): (r: seq<string>)
    ensures |r| == |lines|
    ensures forall i :: 0 <= i < |r| ==> r[i] == Trim(lines[i])
  {
    seq(|lines|, i requires 0 <= i < |lines| => Trim(lines[i]))
  }

  /** The lines that are not empty, in their original order. Nothing is
      dropped from lines without an empty one; which lines survive is
      stated by DropBlankMembers. */
  function DropBlank(lines: seq<string>): (r: seq<string>)
    ensures |r| <= |lines|
    ensures forall i :: 0 <= i < |r| ==> r[i] != ""
    ensures "" !in lines ==> r == lines
  {
    if lines == [] then []
    else if lines[0] == "" then DropBlank(lines[1..])
    else [lines[0]] + DropBlank(lines[1..])
  }

  /** The step texts of a textarea value: the trimmed lines that are not
      blank, in input order. Each is non-empty, already trimmed and a
      single line. */
  function StepTexts(text: string): (r: seq<string>)
    ensures forall i :: 0 <= i < |r| ==> r[i] != "" && Trim(r[i]) == r[i] && '\n' !in r[i]
  {
    var lines := Split(text, '\n');
    TrimmedLines(lines);
    DropBlankMembers(TrimAll(lines));
    DropBlank(TrimAll(lines))
  }

  lemma TrimmedLines(lines: seq<string>)
    requires forall i :: 0 <= i < |lines| ==> '\n' !in lines[i]
    ensures forall x :: x in TrimAll(lines) ==> Trim(x) == x && '\n' !in x
  {
    forall j | 0 <= j < |lines|
      ensures Trim(Trim(lines[j])) == Trim(lines[j]) && '\n' !in Trim(lines[j])
    {
      TrimmedLine(lines[j]);
    }
  }

  /** A trimmed line is trimmed and still a single line. */
  lemma TrimmedLine(line: string)
    requires '\n' !in line
    ensures Trim(Trim(line)) == Trim(line) && '\n' !in Trim(line)
  {
    TrimIdempotent(line);
  }

  /** Numbers texts from 1 in order. */
  function Number(texts: seq<string>): (steps: seq<Step>)
    ensures |steps| == |texts|
    ensures forall i :: 0 <= i < |steps| ==> steps[i] == Step(i + 1, texts[i])
  {
    seq(|texts|, i requires 0 <= i < |texts| => Step(i + 1, texts[i]))
  }

  function Texts(steps: seq<Step>): (r: seq<string>)
    ensures |r| == |steps|
    ensures forall i :: 0 <= i < |r| ==> r[i] == steps[i].text
  {
    seq(|steps|, i requires 0 <= i < |steps| => steps[i].text)
  }

  /** The steps a create or theme save stores for its `steps` field: none
      when the field is absent or blank, otherwise one step per non-blank
      line, numbered 1..n without gaps. The blank guard changes nothing:
      a blank textarea has no non-blank line. */
  function ParseSteps(field: Option<string>): (steps: seq<Step>)
    ensures forall i :: 0 <= i < |steps| ==> steps[i].order == i + 1
    ensures forall i :: 0 <= i < |steps| ==>
      steps[i].text != "" && Trim(steps[i].text) == steps[i].text && '\n' !in steps[i].text
    ensures Texts(steps) == (if field.Some? then StepTexts(field.value) else [])
  {
    if field.Some? && Trim(field.value) != "" then
      Number(StepTexts(field.value))
    else if field.Some? then
      BlankHasNoSteps(field.value);
      []
    else
      []
  }

  /** Every line of a blank text trims to nothing, so no step is kept. */
  lemma BlankHasNoSteps(text: string)
    requires AllSpace(text)
    ensures StepTexts(text) == []
  {
    var lines := Split(text, '\n');
    AllSpaceLines(text, '\n');
    DropAllBlank(lines);
  }

  /** Lines that are all whitespace leave nothing after trimming and
      filtering. */
  lemma {:induction false} DropAllBlank(lines: seq<string>)
    requires forall i :: 0 <= i < |lines| ==> AllSpace(lines[i])
    ensures DropBlank(TrimAll(lines)) == []
  {
    if lines != [] {
      DropAllBlank(lines[1..]);
      assert TrimAll(lines)[1..] == TrimAll(lines[1..]);
    }
  }

  /** The pieces of a whitespace-only string are whitespace-only. */
  lemma {:induction false} AllSpaceLines(s: string, sep: char)
    requires AllSpace(s)
    ensures forall i :: 0 <= i < |Split(s, sep)| ==> AllSpace(Split(s, sep)[i])
  {
    if s != [] {
      AllSpaceLines(s[1..], sep);
    }
  }

  /** Filtering a concatenation filters each part. */
  lemma {:induction false} DropBlankAppend(a: seq<string>, b: seq<string>)
    ensures DropBlank(a + b) == DropBlank(a) + DropBlank(b)
  {
    if a == [] {
      assert a + b == b;
    } else {
      DropBlankAppend(a[1..], b);
      ConsOfAppend(a, b);
      DropBlankCons(a[0], a[1..] + b);
      DropBlankCons(a[0], a[1..]);
      var head := if a[0] == "" then [] else [a[0]];
      AppendAssoc(head, DropBlank(a[1..]), DropBlank(b));
    }
  }

  /** Filtering lines with a known first line. */
  lemma DropBlankCons(line: string, rest: seq<string>)
    ensures DropBlank([line] + rest) == (if line == "" then [] else [line]) + DropBlank(rest)
  {
    assert ([line] + rest)[0] == line && ([line] + rest)[1..] == rest;
  }

  /** A line is kept exactly when it is one of the input lines and is
      non-empty. */
  lemma {:induction false} DropBlankMembers(lines: seq<string>)
    ensures forall x :: x in DropBlank(lines) <==> x in lines && x != ""
  {
    if lines != [] {
      DropBlankMembers(lines[1..]);
      assert lines == [lines[0]] + lines[1..];
      DropBlankCons(lines[0], lines[1..]);
    }
  }

  /** Every non-blank line survives the filter. */
  lemma {:induction false} DropBlankKeeps(lines: seq<string>, i: nat)
    requires i < |lines| && lines[i] != ""
    ensures lines[i] in DropBlank(lines)
  {
    if i > 0 {
      DropBlankKeeps(lines[1..], i - 1);
    }
  }

  /** Every non-blank line of the text is a step, trimmed. */
  lemma EveryLineKept(text: string, i: nat)
    requires i < |Split(text, '\n')| && Trim(Split(text, '\n')[i]) != ""
    ensures Trim(Split(text, '\n')[i]) in StepTexts(text)
  {
    DropBlankKeeps(TrimAll(Split(text, '\n')), i);
  }

  /** Text split at a newline yields the steps of the part before it
      followed by the steps of the part after it: input order is kept. */
  lemma StepTextsJoin(a: string, b: string)
    ensures StepTexts(a + "\n" + b) == StepTexts(a) + StepTexts(b)
  {
    var la := Split(a, '\n');
    var lb := Split(b, '\n');
    SplitAround(a, '\n', b);
    assert Split(a + "\n" + b, '\n') == la + lb;
    TrimAllAppend(la, lb);
    DropBlankAppend(TrimAll(la), TrimAll(lb));
  }

  /** Trimming a concatenation of lines trims each part. */
  lemma TrimAllAppend(a: seq<string>, b: seq<string>)
    ensures TrimAll(a + b) == TrimAll(a) + TrimAll(b)
  {
    var l, r := TrimAll(a + b), TrimAll(a) + TrimAll(b);
    assert |l| == |r|;
    forall i | 0 <= i < |l| ensures l[i] == r[i] {
      if i < |a| {
        assert (a + b)[i] == a[i] && r[i] == TrimAll(a)[i];
      } else {
        assert (a + b)[i] == b[i - |a|] && r[i] == TrimAll(b)[i - |a|];
      }
    }
  }

  /** A single line yields its trimmed text as the one step, or nothing
      when it is blank. */
  lemma StepTextsLine(line: string)
    requires '\n' !in line
    ensures StepTexts(line) == (if Trim(line) == "" then [] else [Trim(line)])
  {
    SplitNoSep(line, '\n');
    assert TrimAll([line]) == [Trim(line)];
  }
}

=== FILE: store.dfy ===
/** The records the handlers read and write, held in an abstract store
    that stands in for the database. */
module Store {
  import opened Fields
  import opened Platforms
  import opened Steps
  import opened Rows
  import opened Http

  datatype Layout = Vertical | Horizontal

  /** Branding and public copy of a business. */
  datatype Theme = Theme(
    logoUrl: Option<string>,
    brandColor: Option<string>,
    publicTitle: Option<string>,
    publicSubtitle: Option<string>,
    publicFooter: Option<string>,
    ctaLabel: Option<string>,
    ctaText: Option<string>,
    showLogo: bool,
    qrLayout: Layout)

  /** The destination fields `instagramUrl`, `tiktokUrl` and `youtubeUrl`;
      a null field is `None`. */
  datatype Links = Links(instagram: Option<string>, tiktok: Option<string>, youtube: Option<string>)

  /** A business. Its slug is the key it is stored under. */
  datatype Business = Business(id: nat, name: string, theme: Theme, links: Links)

  /** A redirect-history row: the destination before and after a change;
      `toUrl` is `""` when the platform was disabled. */
  datatype Change = Change(platform: Platform, fromUrl: Option<string>, toUrl: string)

  /** A scan event; `ipHash` is the digest of the client address. */
  datatype Scan = Scan(platform: Platform, userAgent: Option<string>, ipHash: Option<string>, referer: Option<string>)

  /** The database: businesses by slug, which is unique, and the three
      tables that point at a business by id. `nextId` is the id the database
      hands out to the next business it creates. */
  datatype Store = Store(
    businesses: map<string, Business>,
    steps: seq<Row<Step>>,
    history: seq<Row<Change>>,
    scans: seq<Row<Scan>>,
    nextId: nat)

  /** A handler's answer and the store it leaves behind. */
  datatype Handled = Handled(response: Response, store: Store)

  /** The stored destination of one platform of a business. */
  function Url(b: Business, p: Platform): Option<string> {
    match p
    case Instagram => b.links.instagram
    case TikTok => b.links.tiktok
    case YouTube => b.links.youtube
  }

  /** Writes one platform's destination and nothing else. */
  function WithUrl(b: Business, p: Platform, url: Option<string>): (r: Business)
    ensures Url(r, p) == url
    ensures forall q :: q != p ==> Url(r, q) == Url(b, q)
    ensures r.id == b.id && r.name == b.name && r.theme == b.theme
  {
    match p
    case Instagram => b.(links := b.links.(instagram := url))
    case TikTok => b.(links := b.links.(tiktok := url))
    case YouTube => b.(links := b.links.(youtube := url))
  }

  /** The step rows a business gets for a parsed step list. */
  function StepRows(id: nat, steps: seq<Step>): (rows: seq<Row<Step>>)
    ensures |rows| == |steps|
    ensures forall i :: 0 <= i < |rows| ==> rows[i] == Row(id, steps[i])
  {
    seq(|steps|, i requires 0 <= i < |steps| => Row(id, steps[i]))
  }

  /** The ids of the stored businesses. */
  function Ids(s: Store): set<nat> {
    set k | k in s.businesses :: s.businesses[k].id
  }

  /** Every stored id is below the next id to be handed out. */
  predicate IdsBelowNext(s: Store) {
    forall k :: k in s.businesses ==> s.businesses[k].id < s.nextId
  }

  /** Different slugs name different businesses. */
  predicate IdsDistinct(s: Store) {
    forall k, k' :: k in s.businesses && k' in s.businesses && k != k' ==>
      s.businesses[k].id != s.businesses[k'].id
  }

  /** Every step, history row and scan event belongs to a stored business. */
  predicate NoOrphans(s: Store) {
    OwnersIn(s.steps, Ids(s)) && OwnersIn(s.history, Ids(s)) && OwnersIn(s.scans, Ids(s))
  }

  /** Step orders run 1..n without gaps, in table order. */
  predicate Numbered(rows: seq<Row<Step>>) {
    forall i :: 0 <= i < |rows| ==> rows[i].value.order == i + 1
  }

  predicate StepsNumbered(s: Store) {
    forall k :: k in s.businesses ==> Numbered(Owned(s.steps, s.businesses[k].id))
  }

  /** The invariant every handler keeps. */
  predicate WellFormed(s: Store) {
    IdsBelowNext(s) && IdsDistinct(s) && NoOrphans(s) && StepsNumbered(s)
  }

  /** The most recent history row for one business and platform. */
  function LastChange(history: seq<Row<Change>>, id: nat, p: Platform): (c: Option<Change>)
    ensures c.Some? ==> c.value.platform == p
  {
    if history == [] then None
    else
      var last := history[|history| - 1];
      if last.businessId == id && last.value.platform == p then Some(last.value)
      else LastChange(history[..|history| - 1], id, p)
  }

  /** A history `toUrl` agrees with a destination field: `""` means the
      field is null, anything else means the field holds exactly it. */
  predicate Reflects(toUrl: string, url: Option<string>) {
    if toUrl == "" then url.None? else url == Some(toUrl)
  }

  /** The audit trail of a business agrees with its current destinations:
      for every platform with history, the latest `toUrl` reflects the
      field. */
  predicate Audited(s: Store, slug: string) {
    slug in s.businesses ==>
      forall p :: LastChange(s.history, s.businesses[slug].id, p).Some? ==>
        Reflects(LastChange(s.history, s.businesses[slug].id, p).value.toUrl, Url(s.businesses[slug], p))
  }
}

=== FILE: text.dfy ===
/** The string primitives the handlers use: `trim`, ASCII case mapping and
    `split` on one separator character. */
module Text {

  /** The characters `String.prototype.trim` removes: the WhiteSpace and
      LineTerminator code points of ECMA-262 (section 12.2 and 12.3). */
  predicate IsSpace(c: char) {
    || c == ' ' || c == '\t' || c == '\n' || c == '\r'
    || c == '\U{000B}' || c == '\U{000C}' || c == '\U{00A0}' || c == '\U{1680}'
    || ('\U{2000}' <= c <= '\U{200A}')
    || c == '\U{2028}' || c == '\U{2029}' || c == '\U{202F}' || c == '\U{205F}'
    || c == '\U{3000}' || c == '\U{FEFF}'
  }

  predicate AllSpace(s: string) {
    forall i :: 0 <= i < |s| ==> IsSpace(s[i])
  }

  /** Number of whitespace characters at the front of `s`. */
  function LeadingSpaces(s: string): (n: nat)
    ensures n <= |s|
    ensures forall i :: 0 <= i < n ==> IsSpace(s[i])
    ensures n < |s| ==> !IsSpace(s[n])
  {
    if |s| == 0 || !IsSpace(s[0]) then 0 else 1 + LeadingSpaces(s[1..])
  }

  /** Number of whitespace characters at the end of `s`. */
  function TrailingSpaces(s: string): (n: nat)
    ensures n <= |s|
    ensures forall i :: |s| - n <= i < |s| ==> IsSpace(s[i])
    ensures n < |s| ==> !IsSpace(s[|s| - n - 1])
  {
    if |s| == 0 || !IsSpace(s[|s| - 1]) then 0 else 1 + TrailingSpaces(s[..|s| - 1])
  }

  /** `s.trim()`: the slice of `s` left after removing leading and trailing
      whitespace. Everything removed is whitespace, and what remains neither
      starts nor ends with it. */
  function Trim(s: string): (r: string)
    ensures LeadingSpaces(s) + |r| <= |s|
    ensures r == s[LeadingSpaces(s)..LeadingSpaces(s) + |r|]
    ensures forall i :: LeadingSpaces(s) + |r| <= i < |s| ==> IsSpace(s[i])
    ensures r == "" <==> AllSpace(s)
    ensures r != "" ==> !IsSpace(r[0]) && !IsSpace(r[|r| - 1])
  {
    var n := LeadingSpaces(s);
    var t := s[n..];
    var m := TrailingSpaces(t);
    var r := t[..|t| - m];
    assert forall i :: n + |r| <= i < |s| ==> s[i] == t[i - n];
    assert r != "" ==> r[0] == s[n] && r[|r| - 1] == t[|t| - m - 1];
    r
  }

  /** A string with no whitespace at either end is its own trim. */
  lemma TrimOfTrimmed(s: string)
    requires s != [] ==> !IsSpace(s[0]) && !IsSpace(s[|s| - 1])
    ensures Trim(s) == s
  {
    assert LeadingSpaces(s) == 0;
    assert TrailingSpaces(s) == 0;
  }

  /** A non-empty string that is its own trim has no whitespace at either
      end. */
  lemma TrimmedEnds(s: string)
    requires s != "" && Trim(s) == s
    ensures !IsSpace(s[0]) && !IsSpace(s[|s| - 1])
  {
    assert Trim(s)[0] == s[0] && Trim(s)[|s| - 1] == s[|s| - 1];
  }

  /** Lower-casing a character keeps it whitespace or non-whitespace. */
  lemma LowerCharSpace(c: char)
    ensures IsSpace(LowerChar(c)) <==> IsSpace(c)
  {
  }

  /** Trimming twice is trimming once. */
  lemma TrimIdempotent(s: string)
    ensures Trim(Trim(s)) == Trim(s)
  {
    TrimOfTrimmed(Trim(s));
  }

  predicate IsUpper(c: char) {
    'A' <= c <= 'Z'
  }

  /** ASCII `toLowerCase` of one character; every other character is kept. */
  function LowerChar(c: char): (d: char)
    ensures !IsUpper(d)
    ensures IsUpper(c) ==> d as int == c as int + 32
    ensures !IsUpper(c) ==> d == c
  {
    if IsUpper(c) then (c as int + 32) as char else c
  }

  /** ASCII `toUpperCase` of one character; every other character is kept. */
  function UpperChar(c: char): (d: char)
    ensures !('a' <= d <= 'z')
    ensures 'a' <= c <= 'z' ==> d as int == c as int - 32
    ensures !('a' <= c <= 'z') ==> d == c
  {
    if 'a' <= c <= 'z' then (c as int - 32) as char else c
  }

  function ToLower(s: string): (r: string)
    ensures |r| == |s|
    ensures forall i :: 0 <= i < |s| ==> r[i] == LowerChar(s[i])
  {
    seq(|s|, i requires 0 <= i < |s| => LowerChar(s[i]))
  }

  function ToUpper(s: string): (r: string)
    ensures |r| == |s|
    ensures forall i :: 0 <= i < |s| ==> r[i] == UpperChar(s[i])
  {
    seq(|s|, i requires 0 <= i < |s| => UpperChar(s[i]))
  }

  /** Lower-casing leaves a string without upper-case letters unchanged,
      so lower-casing twice is lower-casing once. */
  lemma ToLowerFixed(s: string)
    requires forall i :: 0 <= i < |s| ==> !IsUpper(s[i])
    ensures ToLower(s) == s
  {
  }

  /** Lower-casing neither adds nor removes a `/`. */
  lemma LowerKeepsSlash(s: string)
    ensures '/' in ToLower(s) <==> '/' in s
  {
    var l := ToLower(s);
    if '/' in s {
      var i :| 0 <= i < |s| && s[i] == '/';
      assert l[i] == '/';
    }
    if '/' in l {
      var i :| 0 <= i < |l| && l[i] == '/';
      assert s[i] == '/';
    }
  }

  /** `s.split(sep)` for a one-character separator: the pieces between
      separators, in order; there is always at least one piece. */
  function Split(s: string, sep: char): (parts: seq<string>)
    ensures |parts| >= 1
    ensures forall i :: 0 <= i < |parts| ==> sep !in parts[i]
  {
    if s == [] then [[]]
    else
      var rest := Split(s[1..], sep);
      if s[0] == sep then [[]] + rest
      else [[s[0]] + rest[0]] + rest[1..]
  }

  /** `parts.join(sep)`, the inverse of `Split`. */
  function Join(parts: seq<string>, sep: char): string {
    if |parts| == 0 then []
    else if |parts| == 1 then parts[0]
    else parts[0] + [sep] + Join(parts[1..], sep)
  }

  /** Joining the pieces back together gives the original string. */
  lemma {:induction false} JoinSplit(s: string, sep: char)
    ensures Join(Split(s, sep), sep) == s
  {
    if s != [] {
      var rest := Split(s[1..], sep);
      JoinSplit(s[1..], sep);
      if s[0] == sep {
        assert Split(s, sep)[1..] == rest;
      } else {
        var parts := Split(s, sep);
        if |rest| > 1 {
          assert parts[1..] == rest[1..];
        }
      }
    }
  }

  /** Splitting a string with no separator gives that string alone. */
  lemma {:induction false} SplitNoSep(s: string, sep: char)
    requires sep !in s
    ensures Split(s, sep) == [s]
  {
    if s != [] {
      assert sep !in s[1..] by {
        forall c | c in s[1..] ensures c != sep { assert c in s; }
      }
      SplitNoSep(s[1..], sep);
      assert s == [s[0]] + s[1..];
    }
  }

  /** A separator in the middle ends the pieces of the left side and starts
      those of the right side. */
  lemma {:induction false} SplitAround(a: string, sep: char, b: string)
    ensures Split(a + [sep] + b, sep) == Split(a, sep) + Split(b, sep)
  {
    if a == [] {
      assert a + [sep] + b == [sep] + b;
      SplitCons(sep, b, sep);
    } else {
      SplitAround(a[1..], sep, b);
      assert a + [sep] + b == [a[0]] + (a[1..] + [sep] + b);
      assert a == [a[0]] + a[1..];
      SplitAroundStep(a[0], a[1..], sep, b);
    }
  }

  /** The inductive step of `SplitAround`: one more character in front. */
  lemma SplitAroundStep(c: char, a: string, sep: char, b: string)
    requires Split(a + [sep] + b, sep) == Split(a, sep) + Split(b, sep)
    ensures Split([c] + (a + [sep] + b), sep) == Split([c] + a, sep) + Split(b, sep)
  {
    SplitCons(c, a + [sep] + b, sep);
    SplitCons(c, a, sep);
    ConsPiece(c, sep, Split(a, sep), Split(b, sep));
  }

  /** Putting a character in front of the first of some pieces, or a new
      empty piece in front when it is the separator, commutes with
      appending more pieces. */
  lemma ConsPiece(c: char, sep: char, left: seq<string>, right: seq<string>)
    requires |left| >= 1
    ensures (if c == sep then [[]] + (left + right) else [[c] + (left + right)[0]] + (left + right)[1..])
         == (if c == sep then [[]] + left else [[c] + left[0]] + left[1..]) + right
  {
    if c != sep {
      assert (left + right)[0] == left[0];
      assert (left + right)[1..] == left[1..] + right;
    }
  }

  /** Splitting a string with a known first character. */
  lemma SplitCons(c: char, t: string, sep: char)
    ensures Split([c] + t, sep)
         == if c == sep then [[]] + Split(t, sep)
            else [[c] + Split(t, sep)[0]] + Split(t, sep)[1..]
  {
    assert ([c] + t)[0] == c && ([c] + t)[1..] == t;
  }

  /** A string splits into more than one piece exactly when it contains
      the separator. */
  lemma SeparatorSplits(s: string, sep: char)
    ensures sep in s <==> |Split(s, sep)| >= 2
  {
    if sep in s {
      var i :| 0 <= i < |s| && s[i] == sep;
      assert s == s[..i] + [sep] + s[i + 1..];
      SplitAround(s[..i], sep, s[i + 1..]);
    } else {
      SplitNoSep(s, sep);
    }
  }

  /** Splitting inverts joining pieces that do not contain the separator. */
  lemma {:induction false} SplitJoin(parts: seq<string>, sep: char)
    requires |parts| >= 1
    requires forall i :: 0 <= i < |parts| ==> sep !in parts[i]
    ensures Split(Join(parts, sep), sep) == parts
  {
    SplitNoSep(parts[0], sep);
    if |parts| > 1 {
      SplitJoin(parts[1..], sep);
      SplitAround(parts[0], sep, Join(parts[1..], sep));
      assert parts == [parts[0]] + parts[1..];
    }
  }

  /** The first piece of a split is the prefix of `s` up to (not including)
      the first separator, or all of `s` when there is none. */
  lemma {:induction false} FirstPiece(s: string, sep: char)
    ensures Split(s, sep)[0] <= s
    ensures |Split(s, sep)[0]| == |s| || s[|Split(s, sep)[0]|] == sep
  {
    if s != [] {
      FirstPiece(s[1..], sep);
    }
  }

  /** A non-empty sequence followed by more is its first element followed
      by the rest. */
  lemma ConsOfAppend<T>(x: seq<T>, s: seq<T>)
    requires x != []
    ensures x + s == [x[0]] + (x[1..] + s)
  {
    assert x == [x[0]] + x[1..];
  }

  /** Concatenation of sequences is associative. */
  lemma AppendAssoc<T>(a: seq<T>, b: seq<T>, c: seq<T>)
    ensures a + (b + c) == (a + b) + c
  {
  }
}
